=== FILE: README.md ===
# Market daily snapshot, report and guessing game — a Dafny model

This project models two small Python programs and proves properties of the
model.

- **market_daily**:
  - `fetch_snapshot.py` reads instrument rows from `sources.csv`. It can add a
    USD/JPY quote from the Alpha Vantage exchange-rate feed, and it writes a
    dated snapshot with one list per category (equity, commodities, crypto,
    fx).
  - `daily_report.py` renders that snapshot as a Markdown report.
- **python_practice**: a number-guessing game. `check_guess` gives the hint
  for one guess. `play_game` runs one round. `display_result` picks a message
  from the attempt count. `get_valid_input` keeps prompting until it reads an
  integer in range.

Modules, one per concern:

| module | file | models |
|---|---|---|
| `Wrappers` | wrappers.dfy | `Option` and `Result` |
| `Text` | text.dfy | `str.strip()` (Python's whitespace set), `str.lower()` on ASCII capitals, `sep.join` and `s.split` for one-character separators |
| `Numbers` | numbers.dfy | `float()` and `int()` on plain decimal numerals, and the `.2f` and `,.2f` format specs (half-to-even rounding on exact values), with read-back lemmas |
| `Feed` | feed.dfy | decoded JSON values, and how `fetch_usdjpy` turns a decoded response into a quote (as written, and corrected) |
| `FetchSnapshot` | fetch_snapshot.dfy | `build_snapshot`, and the decisions and exit code of `main` |
| `DailyReport` | daily_report.dfy | `format_change` and `generate_markdown` |
| `GameUtils` | game_utils.dfy | the message tier of `display_result`, and `get_valid_input` over the lines typed at the prompt |
| `GuessGame` | guess_game.dfy | `check_guess`, and `play_game` with the secret and the typed lines as parameters |

Numbers are exact `real`s and integers are unbounded. Decoded JSON is the
`Json` datatype, and Python truthiness (`if not v`) is modelled on it. A
`None` from the prompt means the typed lines ran out, where `input()` would
raise `EOFError`.

Behaviour of the code that is easy to miss, and that the model keeps:

- A rate object that has no price field gives a quote with price 0.0, because
  the code reads the price with `rate_data.get("5. Exchange Rate", 0)`
  (market_daily/fetch_snapshot.py:40). See `Feed.ShapeQuoteAsWritten`.
- A commodity gets a `unit` only when its stripped unit cell is non-empty
  (market_daily/fetch_snapshot.py:104-107). See `FetchSnapshot.MakeItem`.
- A report section shows the no-data line both when its list is empty and when
  its key is absent (`data.get(...)` is falsy in both cases). See
  `DailyReport.SectionShape`.
- A malformed rate value, or a connection that fails after the request was
  sent, is not tolerated as written. It aborts the run; see "Findings".

## Model

| member | source | states |
|---|---|---|
| FetchSnapshot.BuildSnapshot | market_daily/fetch_snapshot.py:75-115 | The build succeeds exactly when every row with a known category has a price, change and change_pct that `float` accepts. On success: the date is the one given; each category's list is exactly the items of that category's rows, in CSV order, measured against the reference filter `Select`; `fx` is `[quote]` when a quote was given and `[]` otherwise. |
| FetchSnapshot.Categorise | market_daily/fetch_snapshot.py:89-109 | The loop over rows succeeds iff every accepted row's numbers coerce. Its three lists equal the item-by-item image of each category's rows in source order. |
| FetchSnapshot.ParseCategory | market_daily/fetch_snapshot.py:90-91 | A category is recognised exactly when `strip().lower()` of the cell equals one of the three names, and it is that name. |
| FetchSnapshot.CategoryIgnoresPaddingAndCase | market_daily/fetch_snapshot.py:90-91 | Any whitespace around any capitalisation of a category's name selects that category. |
| FetchSnapshot.PaddedEquityIsAccepted | market_daily/fetch_snapshot.py:90-91 | `" Equity "` lands in equity. |
| FetchSnapshot.FxRowIsDropped | market_daily/fetch_snapshot.py:90-93 | A CSV row with category `fx` is skipped: the fx list is never filled from the CSV. |
| FetchSnapshot.DroppedRowIsInert | market_daily/fetch_snapshot.py:89-93 | Inserting a row of unknown category anywhere leaves the build's result unchanged, even when its number cells are malformed, because the skip happens before coercion. |
| FetchSnapshot.DroppedRowIsInertInSnapshot | market_daily/fetch_snapshot.py:89-93 | The same holds for the whole snapshot. |
| FetchSnapshot.NumberCell | market_daily/fetch_snapshot.py:98-100 | An absent column reads as 0.0. A present one succeeds iff `float` accepts its text, and then gives that value. Otherwise it fails, naming the column and the text. |
| FetchSnapshot.MakeItem | market_daily/fetch_snapshot.py:95-107 | Symbol and name are stripped. The unit is present iff the category is commodities and the stripped unit is non-empty, and then it equals the stripped unit. |
| FetchSnapshot.BuildItem | market_daily/fetch_snapshot.py:95-107 | The item is built iff all three numeric cells coerce. A failure names the first bad column in dict-literal order (price, change, change_pct). On success each number is its cell's value. |
| FetchSnapshot.ItemsOfPointwise | market_daily/fetch_snapshot.py:95-109 | A bucket has one item per selected row, in the same order, each built from its own row. |
| FetchSnapshot.BucketUnits | market_daily/fetch_snapshot.py:103-107 | Within a bucket, each item has a unit exactly when its row is a commodity with a non-empty stripped unit. |
| FetchSnapshot.NoUnitOutsideCommodities | market_daily/fetch_snapshot.py:103-107 | Equity and crypto items never carry a unit. |
| FetchSnapshot.CommodityUnits | market_daily/fetch_snapshot.py:103-107 | The k-th commodity has a unit exactly when the k-th commodities row has a non-empty stripped unit cell, and then has that text. |
| FetchSnapshot.ExitCode | market_daily/fetch_snapshot.py:163-179 | `main` returns 0 exactly when a snapshot was saved, and 1 otherwise. |
| FetchSnapshot.RunWith | market_daily/fetch_snapshot.py:125-179 | `main` as written saves iff all of these hold: the fetch did not escape with an exception (or no key was set); the CSV loaded; every accepted row coerces; the file was writable. The saved snapshot has the given date, the bucket contents above, and the quote only when a key was set and the feed gave one. A bad number aborts with a conversion failure. |
| FetchSnapshot.NoKeyNoFetch | market_daily/fetch_snapshot.py:132-142 | With an empty API key the feed's answer makes no difference, and `fx` stays empty. |
| FetchSnapshot.Run | market_daily/fetch_snapshot.py:125-179 | With the corrected fetch, `main` saves iff the CSV loaded, every accepted row coerces, and the file was writable. The feed never aborts the run. The saved snapshot has the given date and each category's items built from its rows in CSV order. Its `fx` is the corrected quote when a key was set and the feed gave one, and empty otherwise. |
| FetchSnapshot.BadNumberFailsRun | market_daily/fetch_snapshot.py:171-173 | A non-numeric price, change or change_pct on any accepted row makes `main` return 1 with a conversion failure. |
| FetchSnapshot.FeedCrashAbortsRunAsWritten | market_daily/fetch_snapshot.py:177-179 | As written, a rate value `"n/a"` or a connection interrupted after sending makes `main` return 1 with an empty CSV. With the corrected fetch the same runs return 0. |
| Feed.ToFloat | market_daily/fetch_snapshot.py:40 | `float()` keeps a number and turns a bool into 1.0 or 0.0. It accepts a string iff `float` accepts its text, and then gives that value. It raises ValueError exactly for a string it rejects, and TypeError exactly for null, a list or an object. |
| Feed.ShapeQuoteAsWritten | market_daily/fetch_snapshot.py:35-62 | A quote is produced exactly when the body is an object whose rate value is a truthy object, and its price field is absent or one that `float` accepts. Every quote is USDJPY / USD/JPY with change 0.0 and change_pct 0.0. The price is the coerced price field, or 0.0 when the field is missing. `lastRefreshed` is the field's value, or `""`. No quote, without an exception, exactly when the rate is missing or falsy, or the price is text that is no numeral. The code escapes with an exception exactly when the body is not an object, the rate is not an object, or the price is null, a list or an object. |
| Feed.MalformedRateEscapes | market_daily/fetch_snapshot.py:32-62 | A null price and a string rate value both escape `fetch_usdjpy` as exceptions. |
| Feed.InterruptedReadEscapes | market_daily/fetch_snapshot.py:32-62 | A connection that fails after the request was sent (a read timeout, a dropped connection) escapes `fetch_usdjpy` as written; the corrected fetch gives no quote. |
| Feed.FetchQuote | market_daily/fetch_snapshot.py:29-62 | The corrected fetch yields a quote exactly when the as-written code does, and the same quote. That is exactly when the response decoded to an object with a truthy rate object whose price is absent or accepted by `float`. It never crashes. |
| Numbers.IntRoundTrip | python_practice/utils.py:41 | `int` reads back every integer `str` prints, both through the numeral grammar and through `IntOf`. |
| Numbers.FloatOf | market_daily/fetch_snapshot.py:98-100 | `float(s)` on text succeeds exactly when the text holds none of U+001C to U+001F and, once its whitespace is stripped, is an optional `+` or `-` followed by digits with at most one `.` among them and at least one digit. The value is those digits read as one integer, divided by ten for each digit after the point, with the sign applied. |
| Numbers.IntOf | python_practice/utils.py:41 | `int(s)` on text succeeds exactly when the text holds none of U+001C to U+001F and, once its whitespace is stripped, is an optional `+` or `-` followed by one or more digits. The value is those digits with the sign applied. |
| Numbers.FloatRejectsNonNumerals | market_daily/fetch_snapshot.py:98-100 | `float` rejects `abc`, `1,234` and `1.2.3`. |
| Numbers.IntRejectsNonNumerals | python_practice/utils.py:41-47 | `int` rejects `abc`, `1.5` and the empty line, so `get_valid_input` asks again for each. |
| Numbers.ParseDecimalGrammar | market_daily/fetch_snapshot.py:98-100 | The decimal reader accepts exactly the signed pointed-digit numerals and gives their digit value scaled by the fraction length. |
| Numbers.ParseIntGrammar | python_practice/utils.py:41 | The integer reader accepts exactly the signed digit strings and gives their signed digit value. |
| Numbers.FormatFixed2 | market_daily/daily_report.py:22 | The rendering is made of digits, `,`, `.` and `-` only. It starts with `-` iff the value is negative, and otherwise with a digit. The point comes before exactly two digits and nowhere else. The whole part between the sign and the point is `0` or starts with a non-zero digit. With `,` that whole part has a comma at every fourth place from the right and nowhere else; without it the text has no comma. |
| Numbers.RoundHalfEven | market_daily/daily_report.py:22 | The result is within one half of the input, and ties go to the even neighbour. |
| Numbers.FormatRoundTrip | market_daily/daily_report.py:22 | `float` (`FloatOf`) of a `.2f` rendering gives back the value rounded to hundredths. |
| Numbers.UngroupFormat | market_daily/daily_report.py:22 | The `,.2f` and `.2f` renderings differ only by their commas. |
| Numbers.GroupCommaPlaces | market_daily/daily_report.py:22 | Counting from the right, every fourth character of the `,` grouping is a comma and no other is, and removing the commas gives the digits back. So each comma is followed by exactly three digits and the leading group has one to three. |
| Text.StripSlice | market_daily/fetch_snapshot.py:96-97 | `strip()` returns a contiguous slice of the input. Only whitespace is removed, and the result neither starts nor ends with whitespace. |
| Text.StripPadding | market_daily/fetch_snapshot.py:96-97 | Stripping whitespace padding around a word with non-space ends gives back the word. |
| Text.StripIdempotent | market_daily/fetch_snapshot.py:90 | Stripping twice is stripping once. |
| Text.LowerAscii | market_daily/fetch_snapshot.py:90 | `lower()` keeps the length and maps each character on its own. |
| Text.SplitJoin | market_daily/daily_report.py:88 | Splitting a `"\n".join` gives back the parts when no part holds the separator. |
| DailyReport.ReadChangeOfFormat | market_daily/daily_report.py:19-22 | Reading a `format_change` text back gives both rounded values, except when `change >= 0` and `change_pct < 0`. In that case the percentage prints as `+-…%`, which is no number. The amount, and the percentage after ` (`, start with `+` exactly when `change >= 0`. |
| DailyReport.PlusChosenByChange | market_daily/daily_report.py:21-22 | The amount and the percentage both start with `+` exactly when `change >= 0`. A negative amount starts with `-`. The percentage's own `-` follows the `+`, or comes first when there is no `+`, exactly when `change_pct < 0`. |
| DailyReport.SignedTextReadsBack | market_daily/daily_report.py:21-22 | A sign-prefixed `.2f` reads back as the rounded value, unless it is `+` before a negative value. |
| DailyReport.RowSplitsIntoCells | market_daily/daily_report.py:42-44 | Splitting a table row on the pipe character gives its cells in column order: symbol, name, `,.2f` price, (unit or `-` for commodities), change text. This holds when symbol, name and unit hold no pipe character. |
| DailyReport.Rows | market_daily/daily_report.py:42-44 | One table row per item, in list order. |
| DailyReport.SectionShape | market_daily/daily_report.py:36-49 | A section is its heading, a blank line, then either the table header, alignment rule, one row per item, a blank line and the note, or the no-data line, followed by a blank line. The table appears iff the list is present and non-empty. |
| DailyReport.LinesShape | market_daily/daily_report.py:25-88 | The report is the four header lines (with the date, or `N/A`), then the Equity, Commodities and Crypto sections in that order, then the four footer lines, and nothing else. |
| DailyReport.MarkdownEnding | market_daily/daily_report.py:82-88 | The text ends with a newline, the disclaimer and exactly one more newline. |
| DailyReport.MarkdownSplitsIntoLines | market_daily/daily_report.py:25-88 | Splitting the Markdown on newlines gives back exactly the rendered lines, when no field holds a newline. |
| DailyReport.FxNeverRendered | market_daily/daily_report.py:25-88 | The report is the same whatever the `fx` list holds: no section renders it. |
| GameUtils.ResultMessage | python_practice/utils.py:24-31 | Each message is tied to its own count range: "すごい！一発正解！" iff the count is 1; "素晴らしい！" iff it is not 1 and at most 5 (0 and negatives included); "なかなか良いですね！" iff 6 to 10; "次はもっと少ない回数で！" iff above 10. |
| GameUtils.PraiseNeverImproves | python_practice/utils.py:24-31 | For counts of at least 1, more attempts never earn better praise, and any count above 1 earns worse praise than 1. |
| GameUtils.FirstInRange | python_practice/utils.py:39-47 | The prompt loop over readings returns a value in `[lo, hi]` that is the reading of the last line it consumed. |
| GameUtils.GetValidInput | python_practice/utils.py:37-47 | `get_valid_input` returns only a guess with `lo <= guess <= hi`. That guess is `int` of the last line read, and it reads at least one and at most all lines. |
| GameUtils.SkipsRejected | python_practice/utils.py:39-47 | Every reading before the one taken is rejected. The loop gives up only when every reading is rejected. |
| GameUtils.PromptSkipsRejected | python_practice/utils.py:39-47 | Every line before the accepted one is a non-integer or out of range. The prompt returns nothing iff no line is acceptable. |
| GameUtils.TakesFirstInRange | python_practice/utils.py:39-47 | The loop returns the first value of the reference list of in-range readings, and consumes exactly the readings up to it. |
| GameUtils.PromptTakesFirstAccepted | python_practice/utils.py:39-47 | The prompt returns the first accepted guess and reads exactly up to its line. It returns nothing iff no line is accepted. |
| GameUtils.LaterLinesUnread | python_practice/utils.py:39-43 | Lines typed after the accepted one are never read: appending more input changes nothing. |
| GameUtils.InRangeSplit | python_practice/utils.py:39-47 | The in-range values of two stretches of readings concatenate. |
| GameUtils.AcceptedSplit | python_practice/utils.py:39-47 | The values the prompt would accept from two stretches of typed lines concatenate. |
| GuessGame.Compare | python_practice/main.py:17-24 | The hint is Higher iff guess < secret, Lower iff guess > secret, and Correct iff they are equal. |
| GuessGame.CheckGuess | python_practice/main.py:17-24 | "もっと大きい数字です！" iff guess < secret, "もっと小さい数字です！" iff guess > secret, "正解！" iff guess == secret. |
| GuessGame.HintTextsDiffer | python_practice/main.py:19-24 | The three printed hint lines are pairwise different, so the line identifies the hint. |
| GuessGame.HintNarrowsRange | python_practice/main.py:17-24 | A "bigger" hint for a guess holds for every guess at or below it, and a "smaller" hint for every guess at or above it. |
| GuessGame.PlayRounds | python_practice/main.py:34-44 | Over the readings, the round ends iff the secret is among the accepted guesses. Its attempt count is the 1-based position of the secret's first occurrence there, so it is at least 1. It consumes exactly the readings up to that guess, and the last one read is the secret. There is one hint per attempt, and each is the comparison of its own guess with the secret. |
| GuessGame.PlayGame | python_practice/main.py:27-44 | Over the typed lines: the same, and the last line read is `int`-equal to the secret. A secret outside `[lo, hi]` is never guessed. |

## Left out

- HTTP, `json.loads`, CSV reading and JSON writing are left out. A CSV that is not UTF-8 (a ValueError, reported as a conversion failure) and a PermissionError while reading it are not separate outcomes: `SourceLoad` has only the missing file and the malformed CSV. Their outcomes are parameters: `Response`, `SourceLoad` and `writable`.
- `print` diagnostics are left out, as are the welcome banner, `display_result`'s decorative lines and the replay loop of the game's `main`. None of them is a computed result.
- The clock is a parameter: the JST date `build_snapshot` reads from `datetime.now` is the `date` argument.
- `random.randint` is a parameter: the secret is an argument of `PlayGame`.
- `main()` of daily_report.py is file I/O. It swallows every error and returns nothing.
- Numbers.ParseDecimal: models `float()` on plain decimal numerals only (sign, digits, an optional point, surrounding whitespace). Exponents, `_` separators, `inf`/`nan` and non-ASCII digits are rejected, although Python accepts them. The whitespace `float()` skips is modelled in `Numbers.FloatOf`: it is the set `str.strip()` removes, minus U+001C to U+001F. `Numbers.FloatOf` and `Numbers.DecimalNumeral` share this restriction.
- Numbers.ParseInt: the same restriction for `int()`. Python also accepts `_` between digits and non-ASCII digits. `Numbers.IntOf` and `Numbers.IntegerNumeral` share it.
- Numbers.FormatFixed2: rounds the exact value half-to-even. Python rounds the nearest binary double, which can differ at or near ties that are not exactly representable (Python prints 2.67 for both 2.675 and 2.67500000000000000001, where the model prints 2.68).
- Text.LowerAscii: lowers ASCII capitals only. The category test loses nothing by this. The only non-ASCII character whose lowercase is ASCII is the Kelvin sign, which lowers to `k`, and no category name contains a `k`.
- FetchSnapshot.Cell: the model has only string cells. `csv.DictReader` gives `None` for the missing trailing cells of a short row. As a numeric cell, `float(None)` raises TypeError (market_daily/fetch_snapshot.py:98-100). As a category, symbol or name, or the unit of a commodity, `.strip()` raises AttributeError (lines 90, 96-97 and 105); the unit of any other row is never read. Either exception reaches the generic handler of `main`, which returns 1. None of this is modelled.
- DailyReport.Document: models only string dates and well-formed item lists. A JSON `null` date (printed as `None`) and items missing a key (`KeyError`) are not modelled.
- DailyReport.FormatChange: has no signed zero. A change read from `"-0.00"` is `-0.0` in Python, `-0.0 >= 0` holds, and Python prints `+-0.00`; the model's 0.0 prints `+0.00`.
- DailyReport.ReadChangeOfFormat: for the same reason a percentage of `-0.0` with `change >= 0` prints `+-0.00%` in Python, which does not read back; the model's "no read-back exactly when `change_pct < 0`" does not cover it.
- Numbers.FormatFixed2: prints `-0.00` only for negative values that round to zero, not for a signed zero.
- A failed write may leave a partly written snapshot file. The model says only that nothing was saved.
- `PlayGame` and `GetValidInput` return `None` when the typed lines run out. Python would raise `EOFError` there.

## Findings

| source | as written | input that shows it | evidently intended | confidence | as-written member | corrected member |
|---|---|---|---|---|---|---|
| market_daily/fetch_snapshot.py:32-62 | `fetch_usdjpy` catches only URLError, JSONDecodeError, KeyError and ValueError. `.get` on a rate value that is not an object raises AttributeError, `float(None)` raises TypeError, and urllib re-raises a read timeout or dropped connection after sending unchanged (not as URLError). All three escape to the generic handler of `main`, which returns 1 without a snapshot. | body `{"Realtime Currency Exchange Rate": "n/a"}`, a rate object whose price is `null`, or a read timeout while awaiting the response | Any failure to extract the quote gives `None`, and the snapshot is built from the CSV alone, as the module docstring promises. | medium; not executed | Feed.ShapeQuoteAsWritten, Feed.InterruptedReadEscapes, FetchSnapshot.FeedCrashAbortsRunAsWritten | Feed.FetchQuote, FetchSnapshot.Run |

=== FILE: daily_report.dfy ===
/** `format_change` and `generate_markdown` of daily_report.py: a loaded
    snapshot becomes the lines of a Markdown report, joined with newlines. */
module DailyReport {
  import opened Wrappers
  import opened Text
  import opened Numbers
  import opened Feed
  import opened FetchSnapshot

  /** The snapshot as `json.load` hands it to the renderer: any top-level key
      may be absent. */
  datatype Document = Document(
    date: Option<string>,
    equity: Option<seq<Item>>,
    commodities: Option<seq<Item>>,
    crypto: Option<seq<Item>>,
    fx: Option<seq<Quote>>)

  /** `format_change(change, change_pct)`: the `+` in front of both numbers is
      chosen by `change` alone. */
  function FormatChange(change: real, pct: real): string {
    var sign := if change >= 0.0 then "+" else "";
    sign + FormatFixed2(change, true) + " (" + sign + FormatFixed2(pct, false) + "%)"
  }

  /** Reads a `format_change` text back as (change, change_pct): the amount
      before the first space, commas removed, and the percentage between ` (`
      and `%)`, both as `float` would read them. */
  function ReadChange(s: string): Option<(real, real)> {
    match IndexOf(s, ' ')
    case None => None
    case Some(k) =>
      if k + 4 <= |s| && s[k + 1] == '(' && s[|s| - 2..] == "%)" then
        match (ParseDecimal(Ungroup(s[..k])), ParseDecimal(s[k + 2..|s| - 2]))
        case (Some(a), Some(p)) => Some((a, p))
        case _ => None
      else None
  }

  /** `+` followed by an unsigned numeral reads as the numeral itself. */
  lemma PlusUnsigned(u: string)
    requires |u| > 0 && IsDigit(u[0]) && IsDigit(u[|u| - 1])
    ensures ParseDecimal("+" + u) == ParseDecimal(u)
  {
    var s := "+" + u;
    assert s[|s| - 1] == u[|u| - 1];
    StripUnpadded(s);
    StripUnpadded(u);
    assert SplitSign(s) == (false, u);
    assert SplitSign(u) == (false, u);
  }

  /** `+-` is not a numeral. */
  lemma PlusMinusIsNotNumeral(u: string)
    ensures ParseDecimal("+-" + u) == None
  {
    var s := "+-" + u;
    var t := Strip(s);
    assert !IsSpace(s[0]);
    assert StripLeft(s) == s;
    var body := SplitSign(t).1;
    if |t| >= 2 {
      assert t[..2] == "+-" by {
        assert t == s[..|t|];
      }
      assert body[0] == '-';
    }
  }

  /** The sign `format_change` prints before a number, followed by the
      number's `.2f`, reads back as the rounded number unless it is `+-`. */
  lemma SignedTextReadsBack(sign: string, x: real)
    requires sign == "" || sign == "+"
    ensures ParseDecimal(sign + FormatFixed2(x, false))
      == if sign == "+" && x < 0.0 then None else Some(Round2(x))
  {
    if sign == "+" {
      if x < 0.0 {
        NegativeAfterPlus(x);
      } else {
        PositiveAfterPlus(x);
      }
    } else {
      assert sign + FormatFixed2(x, false) == FormatFixed2(x, false);
      FormatRoundTrip(x);
    }
  }

  lemma NegativeAfterPlus(x: real)
    requires x < 0.0
    ensures ParseDecimal("+" + FormatFixed2(x, false)) == None
  {
    var f := FormatFixed2(x, false);
    assert f == "-" + f[1..];
    assert "+" + f == "+-" + f[1..];
    PlusMinusIsNotNumeral(f[1..]);
  }

  lemma PositiveAfterPlus(x: real)
    requires x >= 0.0
    ensures ParseDecimal("+" + FormatFixed2(x, false)) == Some(Round2(x))
  {
    PlusUnsigned(FormatFixed2(x, false));
    FormatRoundTrip(x);
  }

  lemma NoSpaceInNumeral(s: string)
    requires AllNumeralChars(s)
    ensures ' ' !in s && '|' !in s && '\n' !in s
  {
  }

  lemma UngroupSigned(sign: string, x: real)
    requires sign == "" || sign == "+"
    ensures Ungroup(sign + FormatFixed2(x, true)) == sign + FormatFixed2(x, false)
  {
    UngroupAppend(sign, FormatFixed2(x, true));
    UngroupFormat(x);
    UngroupNoComma(sign);
  }

  /** ReadChange takes a text of the shape `a (b%)` apart at its first space. */
  lemma ReadChangeLayout(a: string, b: string)
    requires ' ' !in a
    ensures var pa := ParseDecimal(Ungroup(a));
      var pb := ParseDecimal(b);
      ReadChange(a + " (" + b + "%)") == if pa.Some? && pb.Some? then Some((pa.value, pb.value)) else None
  {
    var s := a + " (" + b + "%)";
    assert s[|a|] == ' ';
    assert s[..|a|] == a;
    assert IndexOf(s, ' ') == Some(|a|);
    assert s[|a| + 1] == '(';
    assert s[|s| - 2..] == "%)";
    assert s[|a| + 2..|s| - 2] == b;
  }

  /** Reading a `format_change` text back recovers both rounded values, except
      when `change >= 0` and `change_pct < 0`: then the percentage is printed
      as `+-…%`, which is not a number. The amount and the percentage both
      start with `+` exactly when `change >= 0`. */
  lemma ReadChangeOfFormat(change: real, pct: real)
    ensures ReadChange(FormatChange(change, pct))
      == if change >= 0.0 && pct < 0.0 then None else Some((Round2(change), Round2(pct)))
    ensures var s := FormatChange(change, pct);
      && IndexOf(s, ' ').Some? && 0 < IndexOf(s, ' ').value && IndexOf(s, ' ').value + 2 < |s|
      && (s[0] == '+' <==> change >= 0.0)
      && (s[IndexOf(s, ' ').value + 2] == '+' <==> change >= 0.0)
  {
    PlusChosenByChange(change, pct);
    var sign := if change >= 0.0 then "+" else "";
    var a := sign + FormatFixed2(change, true);
    var b := sign + FormatFixed2(pct, false);
    FormatChangeLayout(change, pct);
    ReadChangeLayout(a, b);
    UngroupSigned(sign, change);
    SignedTextReadsBack(sign, change);
    SignedTextReadsBack(sign, pct);
  }

  /** The signs `format_change` prints: the amount and the percentage both
      start with `+` exactly when `change >= 0`. A negative amount starts with
      `-`. The percentage's own `-` comes right after that `+`, or first when
      there is no `+`. */
  lemma PlusChosenByChange(change: real, pct: real)
    ensures var s := FormatChange(change, pct);
      && IndexOf(s, ' ').Some?
      && var k := IndexOf(s, ' ').value;
      && 0 < k && k + 3 < |s| && s[k + 1] == '('
      && (s[0] == '+' <==> change >= 0.0)
      && (s[0] == '-' <==> change < 0.0)
      && (s[k + 2] == '+' <==> change >= 0.0)
      && (change >= 0.0 ==> (s[k + 3] == '-' <==> pct < 0.0))
      && (change < 0.0 ==> (s[k + 2] == '-' <==> pct < 0.0))
  {
    var sign := if change >= 0.0 then "+" else "";
    var a := sign + FormatFixed2(change, true);
    var b := sign + FormatFixed2(pct, false);
    FormatChangeLayout(change, pct);
    ChangeTextAt(a, b);
    if change >= 0.0 {
      assert a[0] == '+' && b[0] == '+' && b[1] == FormatFixed2(pct, false)[0];
    } else {
      assert a == FormatFixed2(change, true) && b == FormatFixed2(pct, false);
    }
  }

  /** Where the characters of a text of the shape `a (b%)` sit. */
  lemma ChangeTextAt(a: string, b: string)
    requires ' ' !in a && |a| > 0 && |b| > 1
    ensures var s := a + " (" + b + "%)";
      && IndexOf(s, ' ') == Some(|a|)
      && s[0] == a[0] && s[|a| + 1] == '(' && s[|a| + 2] == b[0] && s[|a| + 3] == b[1]
  {
    var s := a + " (" + b + "%)";
    assert s[..|a|] == a;
    assert s[|a|] == ' ';
  }

  lemma FormatChangeLayout(change: real, pct: real)
    ensures var sign := if change >= 0.0 then "+" else "";
      && ' ' !in sign + FormatFixed2(change, true)
      && FormatChange(change, pct)
         == (sign + FormatFixed2(change, true)) + " (" + (sign + FormatFixed2(pct, false)) + "%)"
  {
    NoSpaceInNumeral(FormatFixed2(change, true));
  }

  const ReportTitle := "# Market Daily Report"
  const NoData := "データがありません。"
  const Disclaimer := "*本レポートは市場データの記録を目的としており、投資助言ではありません。*"
  const Footer := ["---", "", Disclaimer, ""]

  function Heading(c: Category): string {
    match c
    case Equity => "## Equity (株式指数)"
    case Commodities => "## Commodities (コモディティ)"
    case Crypto => "## Crypto (暗号資産)"
  }

  function TableHeader(c: Category): string {
    match c
    case Equity => "| Symbol | Name | Price | Change |"
    case Commodities => "| Symbol | Name | Price | Unit | Change |"
    case Crypto => "| Symbol | Name | Price (USD) | Change |"
  }

  function TableRule(c: Category): string {
    match c
    case Equity => "|--------|------|------:|-------:|"
    case Commodities => "|--------|------|------:|------|-------:|"
    case Crypto => "|--------|------|------------:|-------:|"
  }

  function Note(c: Category): string {
    match c
    case Equity => "> 株式指数は市場全体の動向を示す指標です。値動きは様々な要因により変動します。"
    case Commodities => "> コモディティ価格は需給バランスや市場環境により日々変動します。"
    case Crypto => "> 暗号資産は高いボラティリティを持つ資産クラスです。価格は24時間変動します。"
  }

  /** `item.get("unit", "-")`. */
  function UnitText(unit: Option<string>): string {
    unit.GetOr("-")
  }

  /** One table row; commodities have the unit between price and change. */
  function RowLine(c: Category, it: Item): string {
    var lead := "| " + it.symbol + " | " + it.name + " | " + FormatFixed2(it.price, true) + " | ";
    var change := FormatChange(it.change, it.changePct);
    if c == Commodities then lead + UnitText(it.unit) + " | " + change + " |"
    else lead + change + " |"
  }

  /** The cells of a row, as `|`-separated text. */
  function RowCells(c: Category, it: Item): seq<string> {
    var fixed := [" " + it.symbol + " ", " " + it.name + " ", " " + FormatFixed2(it.price, true) + " "];
    var change := " " + FormatChange(it.change, it.changePct) + " ";
    [""] + fixed + (if c == Commodities then [" " + UnitText(it.unit) + " "] else []) + [change, ""]
  }

  lemma NoBarInChange(change: real, pct: real)
    ensures '|' !in FormatChange(change, pct)
  {
    NoSpaceInNumeral(FormatFixed2(change, true));
    NoSpaceInNumeral(FormatFixed2(pct, false));
  }

  lemma RowLineIsJoin(c: Category, it: Item)
    ensures RowLine(c, it) == Join(RowCells(c, it), '|')
  {
    var p := FormatFixed2(it.price, true);
    var ch := FormatChange(it.change, it.changePct);
    if c == Commodities {
      var u := UnitText(it.unit);
      Spaced5(it.symbol, it.name, p, u, ch);
      Framed5(" " + it.symbol + " ", " " + it.name + " ", " " + p + " ", " " + u + " ", " " + ch + " ");
      assert RowCells(c, it) == ["", " " + it.symbol + " ", " " + it.name + " ", " " + p + " ", " " + u + " ", " " + ch + " ", ""];
    } else {
      Spaced4(it.symbol, it.name, p, ch);
      Framed4(" " + it.symbol + " ", " " + it.name + " ", " " + p + " ", " " + ch + " ");
      assert RowCells(c, it) == ["", " " + it.symbol + " ", " " + it.name + " ", " " + p + " ", " " + ch + " ", ""];
    }
  }

  /** Splitting a row on `|` gives its cells in column order, the unit cell
      between price and change for commodities, provided symbol, name and unit
      hold no `|`. */
  lemma RowSplitsIntoCells(c: Category, it: Item)
    requires '|' !in it.symbol && '|' !in it.name && '|' !in UnitText(it.unit)
    ensures Split(RowLine(c, it), '|') == RowCells(c, it)
  {
    NoSpaceInNumeral(FormatFixed2(it.price, true));
    NoBarInChange(it.change, it.changePct);
    assert NoneContain(RowCells(c, it), '|');
    RowLineIsJoin(c, it);
    SplitJoin(RowCells(c, it), '|');
  }

  /** One row per item, in list order. */
  function Rows(c: Category, items: seq<Item>): (r: seq<string>)
    ensures |r| == |items|
    ensures forall k :: 0 <= k < |items| ==> r[k] == RowLine(c, items[k])
    decreases |items|
  {
    if |items| == 0 then [] else [RowLine(c, items[0])] + Rows(c, items[1..])
  }

  /** `data.get(key)` is truthy: present and non-empty. */
  predicate Present(items: Option<seq<Item>>) {
    items.Some? && |items.value| > 0
  }

  /** The table of a non-empty section: header, alignment, rows, blank, note. */
  function Table(c: Category, items: seq<Item>): seq<string> {
    [TableHeader(c), TableRule(c)] + Rows(c, items) + ["", Note(c)]
  }

  function Section(c: Category, items: Option<seq<Item>>): seq<string> {
    [Heading(c), ""] + (if Present(items) then Table(c, items.value) else [NoData]) + [""]
  }

  function Header(date: Option<string>): seq<string> {
    [ReportTitle, "", "**Date:** " + date.GetOr("N/A"), ""]
  }

  /** The list `lines` of `generate_markdown`. */
  function Lines(doc: Document): seq<string> {
    Header(doc.date)
      + Section(Equity, doc.equity)
      + Section(Commodities, doc.commodities)
      + Section(Crypto, doc.crypto)
      + Footer
  }

  /** `generate_markdown(data)`: the lines joined with `\n`. */
  function GenerateMarkdown(doc: Document): string {
    Join(Lines(doc), '\n')
  }

  /** How many lines a section takes. */
  function SectionLength(items: Option<seq<Item>>): nat {
    if Present(items) then 7 + |items.value| else 4
  }

  /** The lines of `r` from `off` on are the section of category `c`: its
      heading, then the placeholder exactly when the list is missing or empty,
      otherwise the table header, one row per item in order, and the note. */
  ghost predicate SectionAt(r: seq<string>, off: nat, c: Category, items: Option<seq<Item>>) {
    && off + SectionLength(items) <= |r|
    && r[off] == Heading(c) && r[off + 1] == ""
    && (r[off + 2] == NoData <==> !Present(items))
    && (!Present(items) ==> r[off + 3] == "")
    && (Present(items) ==>
          var n := |items.value|;
          && r[off + 2] == TableHeader(c) && r[off + 3] == TableRule(c)
          && (forall k :: 0 <= k < n ==> r[off + 4 + k] == RowLine(c, items.value[k]))
          && r[off + 4 + n] == "" && r[off + 5 + n] == Note(c) && r[off + 6 + n] == "")
  }

  lemma HeaderIsNotNoData(c: Category)
    ensures TableHeader(c) != NoData
  {
    assert TableHeader(c)[0] == '|';
  }

  lemma TableShape(c: Category, items: seq<Item>)
    ensures var t := Table(c, items);
      && |t| == |items| + 4
      && t[0] == TableHeader(c) && t[1] == TableRule(c)
      && (forall k :: 0 <= k < |items| ==> t[2 + k] == RowLine(c, items[k]))
      && t[|items| + 2] == "" && t[|items| + 3] == Note(c)
  {
    FramedListShape(TableHeader(c), TableRule(c), Rows(c, items), "", Note(c));
  }

  /** Index arithmetic of `[a, b] + mid + [c, d]`. */
  lemma FramedListShape(a: string, b: string, mid: seq<string>, c: string, d: string)
    ensures var t := [a, b] + mid + [c, d];
      && |t| == |mid| + 4 && t[0] == a && t[1] == b
      && (forall k :: 0 <= k < |mid| ==> t[2 + k] == mid[k])
      && t[|mid| + 2] == c && t[|mid| + 3] == d
  {
  }

  /** Index arithmetic of `[a, ""] + mid + [""]`. */
  lemma WrappedListShape(a: string, mid: seq<string>)
    ensures var s := [a, ""] + mid + [""];
      && |s| == |mid| + 3 && s[0] == a && s[1] == ""
      && (forall j :: 0 <= j < |mid| ==> s[2 + j] == mid[j])
      && s[|mid| + 2] == ""
  {
  }

  lemma SectionShape(c: Category, items: Option<seq<Item>>)
    ensures |Section(c, items)| == SectionLength(items)
    ensures SectionAt(Section(c, items), 0, c, items)
  {
    var s := Section(c, items);
    if Present(items) {
      var xs := items.value;
      var t := Table(c, xs);
      TableShape(c, xs);
      HeaderIsNotNoData(c);
      WrappedListShape(Heading(c), t);
      assert s[2] == t[0] && s[3] == t[1];
      forall k | 0 <= k < |xs|
        ensures s[4 + k] == RowLine(c, xs[k])
      {
        assert s[2 + (2 + k)] == t[2 + k];
      }
      assert s[4 + |xs|] == t[|xs| + 2];
      assert s[5 + |xs|] == t[|xs| + 3];
    } else {
      WrappedListShape(Heading(c), [NoData]);
    }
  }

  lemma SectionLen(c: Category, items: Option<seq<Item>>)
    ensures |Section(c, items)| == SectionLength(items)
  {
    SectionShape(c, items);
  }

  lemma SectionShift(pre: seq<string>, s: seq<string>, post: seq<string>, c: Category, items: Option<seq<Item>>)
    requires |s| == SectionLength(items) && SectionAt(s, 0, c, items)
    ensures SectionAt(pre + s + post, |pre|, c, items)
  {
    var r := pre + s + post;
    assert forall j :: 0 <= j < |s| ==> r[|pre| + j] == s[j];
  }

  /** The shape of the report: the four header lines with the date (or `N/A`),
      then the Equity, Commodities and Crypto sections in that order, then the
      four footer lines; nothing else. */
  lemma LinesShape(doc: Document)
    ensures var r := Lines(doc);
      && |r| == 8 + SectionLength(doc.equity) + SectionLength(doc.commodities) + SectionLength(doc.crypto)
      && r[..4] == [ReportTitle, "", "**Date:** " + (if doc.date.Some? then doc.date.value else "N/A"), ""]
      && SectionAt(r, 4, Equity, doc.equity)
      && SectionAt(r, 4 + SectionLength(doc.equity), Commodities, doc.commodities)
      && SectionAt(r, 4 + SectionLength(doc.equity) + SectionLength(doc.commodities), Crypto, doc.crypto)
      && r[|r| - 4..] == ["---", "", Disclaimer, ""]
  {
    LinesParts(doc);
    EquityAt(doc);
    CommoditiesAt(doc);
    CryptoAt(doc);
  }

  lemma LinesParts(doc: Document)
    ensures var r := Lines(doc);
      && |r| == 8 + SectionLength(doc.equity) + SectionLength(doc.commodities) + SectionLength(doc.crypto)
      && r[..4] == Header(doc.date)
      && r[|r| - 4..] == Footer
  {
    SectionShape(Equity, doc.equity);
    SectionShape(Commodities, doc.commodities);
    SectionShape(Crypto, doc.crypto);
    ConcatParts(Header(doc.date), Section(Equity, doc.equity), Section(Commodities, doc.commodities),
      Section(Crypto, doc.crypto), Footer);
  }

  lemma EquityAt(doc: Document)
    ensures SectionAt(Lines(doc), 4, Equity, doc.equity)
  {
    SectionShape(Equity, doc.equity);
    SecondPartAt(Header(doc.date), Section(Equity, doc.equity), Section(Commodities, doc.commodities),
      Section(Crypto, doc.crypto), Footer, 4, Equity, doc.equity);
  }

  lemma CommoditiesAt(doc: Document)
    ensures SectionAt(Lines(doc), 4 + SectionLength(doc.equity), Commodities, doc.commodities)
  {
    SectionLen(Equity, doc.equity);
    SectionShape(Commodities, doc.commodities);
    ThirdPartAt(Header(doc.date), Section(Equity, doc.equity), Section(Commodities, doc.commodities),
      Section(Crypto, doc.crypto), Footer, 4 + SectionLength(doc.equity), Commodities, doc.commodities);
  }

  lemma CryptoAt(doc: Document)
    ensures SectionAt(Lines(doc), 4 + SectionLength(doc.equity) + SectionLength(doc.commodities), Crypto, doc.crypto)
  {
    CryptoOffset(doc);
    FourthPartAt(Lines(doc), Header(doc.date) + Section(Equity, doc.equity) + Section(Commodities, doc.commodities),
      Footer, 4 + SectionLength(doc.equity) + SectionLength(doc.commodities),
      Crypto, doc.crypto);
  }

  lemma CryptoOffset(doc: Document)
    ensures |Header(doc.date) + Section(Equity, doc.equity) + Section(Commodities, doc.commodities)|
      == 4 + SectionLength(doc.equity) + SectionLength(doc.commodities)
  {
    SectionLen(Equity, doc.equity);
    SectionLen(Commodities, doc.commodities);
  }

  /** A section placed second, third or fourth in a five-part concatenation
      starts after the parts before it. */
  lemma SecondPartAt(a: seq<string>, s: seq<string>, c: seq<string>, d: seq<string>, f: seq<string>,
                     off: nat, cat: Category, items: Option<seq<Item>>)
    requires off == |a|
    requires |s| == SectionLength(items) && SectionAt(s, 0, cat, items)
    ensures SectionAt(a + s + c + d + f, off, cat, items)
  {
    assert a + s + c + d + f == a + s + (c + d + f);
    SectionShift(a, s, c + d + f, cat, items);
  }

  lemma ThirdPartAt(a: seq<string>, b: seq<string>, s: seq<string>, d: seq<string>, f: seq<string>,
                    off: nat, cat: Category, items: Option<seq<Item>>)
    requires off == |a| + |b|
    requires |s| == SectionLength(items) && SectionAt(s, 0, cat, items)
    ensures SectionAt(a + b + s + d + f, off, cat, items)
  {
    assert a + b + s + d + f == (a + b) + s + (d + f);
    SectionShift(a + b, s, d + f, cat, items);
  }

  lemma FourthPartAt(r: seq<string>, pre: seq<string>, f: seq<string>,
                     off: nat, cat: Category, items: Option<seq<Item>>)
    requires r == pre + Section(cat, items) + f && off == |pre|
    ensures SectionAt(r, off, cat, items)
  {
    SectionShape(cat, items);
    SectionShift(pre, Section(cat, items), f, cat, items);
  }

  /** Regrouping a five-part concatenation, and its first and last parts. */
  lemma ConcatParts<T>(a: seq<T>, b: seq<T>, c: seq<T>, d: seq<T>, e: seq<T>)
    ensures var r := a + b + c + d + e;
      && r == a + b + (c + d + e) && r == a + b + c + (d + e)
      && r == a + (b + c + d + e)
      && r[..|a|] == a && r[|r| - |e|..] == e
  {
  }

  /** The document ends with the disclaimer and exactly one newline after it. */
  lemma MarkdownEnding(doc: Document)
    ensures var md := GenerateMarkdown(doc);
      |md| >= |Disclaimer| + 2 && md[|md| - |Disclaimer| - 2..] == "\n" + Disclaimer + "\n"
  {
    var pre := Header(doc.date) + Section(Equity, doc.equity) + Section(Commodities, doc.commodities)
      + Section(Crypto, doc.crypto);
    assert Footer == ["---", ""] + [Disclaimer, ""];
    assert pre + Footer == (pre + ["---", ""]) + [Disclaimer, ""];
    JoinEnding(pre + ["---", ""], Disclaimer, '\n');
  }

  /** Joining lines that end with `last` and an empty line ends the text with
      the separator, `last`, and one more separator. */
  lemma JoinEnding(body: seq<string>, last: string, sep: char)
    requires |body| >= 1
    ensures var t := Join(body + [last, ""], sep);
      |t| >= |last| + 2 && t[|t| - |last| - 2..] == [sep] + last + [sep]
  {
    assert body + [last, ""] == (body + [last]) + [""];
    JoinSnoc(body + [last], "", sep);
    JoinSnoc(body, last, sep);
    var t := Join(body + [last, ""], sep);
    assert t == Join(body, sep) + ([sep] + last + [sep]);
  }

  /** No field that reaches the report holds a newline. */
  predicate SingleLineFields(doc: Document) {
    && (doc.date.Some? ==> '\n' !in doc.date.value)
    && (doc.equity.Some? ==> SingleLineItems(doc.equity.value))
    && (doc.commodities.Some? ==> SingleLineItems(doc.commodities.value))
    && (doc.crypto.Some? ==> SingleLineItems(doc.crypto.value))
  }

  predicate SingleLineItems(items: seq<Item>) {
    forall k :: 0 <= k < |items| ==>
      '\n' !in items[k].symbol && '\n' !in items[k].name && '\n' !in UnitText(items[k].unit)
  }

  lemma RowIsOneLine(c: Category, it: Item)
    requires '\n' !in it.symbol && '\n' !in it.name && '\n' !in UnitText(it.unit)
    ensures '\n' !in RowLine(c, it)
  {
    NoSpaceInNumeral(FormatFixed2(it.price, true));
    NoSpaceInNumeral(FormatFixed2(it.change, true));
    NoSpaceInNumeral(FormatFixed2(it.changePct, false));
  }

  lemma DateLineIsOneLine(date: Option<string>)
    requires date.Some? ==> '\n' !in date.value
    ensures '\n' !in "**Date:** " + date.GetOr("N/A")
  {
  }

  lemma NoneContainConcat(a: seq<string>, b: seq<string>, sep: char)
    requires NoneContain(a, sep) && NoneContain(b, sep)
    ensures NoneContain(a + b, sep)
  {
    assert forall i :: 0 <= i < |a + b| ==> (a + b)[i] == if i < |a| then a[i] else b[i - |a|];
  }

  lemma RowsAreLines(c: Category, items: seq<Item>)
    requires SingleLineItems(items)
    ensures NoneContain(Rows(c, items), '\n')
  {
    var r := Rows(c, items);
    forall k | 0 <= k < |r|
      ensures '\n' !in r[k]
    {
      RowIsOneLine(c, items[k]);
    }
  }

  lemma SectionIsLines(c: Category, items: Option<seq<Item>>)
    requires items.Some? ==> SingleLineItems(items.value)
    ensures NoneContain(Section(c, items), '\n')
  {
    HeadingIsOneLine(c);
    if Present(items) {
      TableIsLines(c, items.value);
      WrappedIsLines(Heading(c), Table(c, items.value), '\n');
    } else {
      NoDataIsOneLine();
      WrappedIsLines(Heading(c), [NoData], '\n');
    }
  }

  lemma TableIsLines(c: Category, items: seq<Item>)
    requires SingleLineItems(items)
    ensures NoneContain(Table(c, items), '\n')
  {
    TableHeaderIsOneLine(c);
    TableRuleIsOneLine(c);
    NoteIsOneLine(c);
    RowsAreLines(c, items);
    FramedIsLines(TableHeader(c), TableRule(c), Rows(c, items), "", Note(c), '\n');
  }

  /** `[a, b] + mid + [c, d]` has no line with `sep` when none of its pieces has. */
  lemma FramedIsLines(a: string, b: string, mid: seq<string>, c: string, d: string, sep: char)
    requires sep !in a && sep !in b && sep !in c && sep !in d && NoneContain(mid, sep)
    ensures NoneContain([a, b] + mid + [c, d], sep)
  {
    FramedListShape(a, b, mid, c, d);
  }

  /** `[a, ""] + mid + [""]` has no line with `sep` when `a` and `mid` have none. */
  lemma WrappedIsLines(a: string, mid: seq<string>, sep: char)
    requires sep !in a && NoneContain(mid, sep)
    ensures NoneContain([a, ""] + mid + [""], sep)
  {
    WrappedListShape(a, mid);
  }

  /** Splitting the Markdown text on newlines gives back exactly the lines the
      renderer produced, when no field holds a newline of its own. */
  lemma MarkdownSplitsIntoLines(doc: Document)
    requires SingleLineFields(doc)
    ensures Split(GenerateMarkdown(doc), '\n') == Lines(doc)
  {
    var h := Header(doc.date);
    var e := Section(Equity, doc.equity);
    var m := Section(Commodities, doc.commodities);
    var k := Section(Crypto, doc.crypto);
    SectionIsLines(Equity, doc.equity);
    SectionIsLines(Commodities, doc.commodities);
    SectionIsLines(Crypto, doc.crypto);
    assert NoneContain(h, '\n') by {
      TitleIsOneLine();
      DateLineIsOneLine(doc.date);
    }
    assert NoneContain(Footer, '\n') by {
      DisclaimerIsOneLine();
    }
    NoneContainConcat(h, e, '\n');
    NoneContainConcat(h + e, m, '\n');
    NoneContainConcat(h + e + m, k, '\n');
    NoneContainConcat(h + e + m + k, Footer, '\n');
    SplitJoin(Lines(doc), '\n');
  }

  /** `fx` is never rendered. */
  lemma FxNeverRendered(doc: Document, fx: Option<seq<Quote>>)
    ensures GenerateMarkdown(doc.(fx := fx)) == GenerateMarkdown(doc)
  {
  }

  // ---------------------------------------------------------------------
  // Solver helpers: the row frames and the fixed lines, cut into the small
  // facts the proofs above use one step at a time.
  // ---------------------------------------------------------------------

  /** A row framed by `|` on both sides is the join of its cells with an
      empty cell at each end. */
  lemma Framed4(w: string, x: string, y: string, z: string)
    ensures Join(["", w, x, y, z, ""], '|') == "|" + w + "|" + x + "|" + y + "|" + z + "|"
  {
    JoinCons(z, [""], '|');
    JoinCons(y, [z, ""], '|');
    JoinCons(x, [y, z, ""], '|');
    JoinCons(w, [x, y, z, ""], '|');
    JoinCons("", [w, x, y, z, ""], '|');
  }

  lemma Framed5(v: string, w: string, x: string, y: string, z: string)
    ensures Join(["", v, w, x, y, z, ""], '|') == "|" + v + "|" + w + "|" + x + "|" + y + "|" + z + "|"
  {
    JoinCons(z, [""], '|');
    JoinCons(y, [z, ""], '|');
    JoinCons(x, [y, z, ""], '|');
    JoinCons(w, [x, y, z, ""], '|');
    JoinCons(v, [w, x, y, z, ""], '|');
    JoinCons("", [v, w, x, y, z, ""], '|');
  }

  lemma Spaced4(a: string, b: string, c: string, d: string)
    ensures "| " + a + " | " + b + " | " + c + " | " + d + " |"
         == "|" + (" " + a + " ") + "|" + (" " + b + " ") + "|" + (" " + c + " ") + "|" + (" " + d + " ") + "|"
  {
  }

  lemma Spaced5(a: string, b: string, c: string, d: string, e: string)
    ensures "| " + a + " | " + b + " | " + c + " | " + d + " | " + e + " |"
         == "|" + (" " + a + " ") + "|" + (" " + b + " ") + "|" + (" " + c + " ") + "|"
            + (" " + d + " ") + "|" + (" " + e + " ") + "|"
  {
  }

  /** None of the fixed lines holds a newline. */
  lemma HeadingIsOneLine(c: Category) ensures '\n' !in Heading(c) {}
  lemma TableHeaderIsOneLine(c: Category) ensures '\n' !in TableHeader(c) {}
  lemma TableRuleIsOneLine(c: Category) ensures '\n' !in TableRule(c) {}
  lemma NoteIsOneLine(c: Category) ensures '\n' !in Note(c) {
    match c
    case Equity => EquityNoteIsOneLine();
    case Commodities => CommoditiesNoteIsOneLine();
    case Crypto => CryptoNoteIsOneLine();
  }
  lemma EquityNoteIsOneLine() ensures '\n' !in Note(Equity) {}
  lemma CommoditiesNoteIsOneLine() ensures '\n' !in Note(Commodities) {}
  lemma CryptoNoteIsOneLine() ensures '\n' !in Note(Crypto) {}
  lemma NoDataIsOneLine() ensures '\n' !in NoData {}
  lemma TitleIsOneLine() ensures '\n' !in ReportTitle {}
  lemma DisclaimerIsOneLine() ensures '\n' !in Disclaimer {}
}

=== FILE: feed.dfy ===
/** The quote shaping of `fetch_usdjpy`: what becomes of an already decoded
    Alpha Vantage response. The HTTP request and the JSON decoder are outside
    the model; their outcome is the `Response` parameter. */
module Feed {
  import opened Wrappers
  import opened Numbers

  /** A decoded JSON value, as `json.loads` returns it. */
  datatype Json =
    | JNull
    | JBool(b: bool)
    | JNum(n: real)
    | JStr(s: string)
    | JArr(items: seq<Json>)
    | JObj(fields: map<string, Json>)

  /** Python truthiness of a decoded value (`if not v`). */
  predicate Truthy(v: Json) {
    match v
    case JNull => false
    case JBool(b) => b
    case JNum(n) => n != 0.0
    case JStr(s) => |s| > 0
    case JArr(a) => |a| > 0
    case JObj(m) => |m| > 0
  }

  /** The point-in-time USD/JPY level; the feed carries no day-over-day change. */
  datatype Quote = Quote(
    symbol: string,
    name: string,
    price: real,
    change: real,
    changePct: real,
    lastRefreshed: Json)

  /** What `float(v)` does with a decoded value: a number, a ValueError (text
      that is not a numeral) or a TypeError (null, list or object). */
  datatype Coerced = Number(value: real) | ValueError | TypeError

  function ToFloat(v: Json): (r: Coerced)
    ensures v.JNum? ==> r == Number(v.n)
    ensures v.JBool? ==> r == Number(if v.b then 1.0 else 0.0)
    ensures v.JStr? ==> (r.Number? <==> FloatOf(v.s).Some?)
    ensures v.JStr? && r.Number? ==> r.value == FloatOf(v.s).value
    ensures r.ValueError? <==> v.JStr? && FloatOf(v.s).None?
    ensures r.TypeError? <==> v.JNull? || v.JArr? || v.JObj?
  {
    match v
    case JNum(n) => Number(n)
    case JBool(b) => Number(if b then 1.0 else 0.0)
    case JStr(s) => (match FloatOf(s) case Some(x) => Number(x) case None => ValueError)
    case _ => TypeError
  }

  /** The three ways `fetch_usdjpy` can end once a body was decoded: a quote,
      `None` (a caught exception or a missing rate object), or an exception
      that escapes it. */
  datatype FeedResult = GotQuote(quote: Quote) | NoQuote | Crashed

  /** What the HTTP request and `json.loads` produced. `Unreachable` is a
      request that could not be sent or got an HTTP error status: urllib
      raises URLError (or its subclass HTTPError). `Interrupted` is a
      connection that failed once the request was sent, such as a read timeout,
      a dropped connection or a truncated body. urllib re-raises those
      unchanged, so they are not URLError. `Undecodable` is a body that is not
      UTF-8 JSON, which raises a ValueError. */
  datatype Response = Unreachable | Interrupted | Undecodable | Decoded(body: Json)

  const RateKey := "Realtime Currency Exchange Rate"
  const PriceKey := "5. Exchange Rate"
  const RefreshedKey := "6. Last Refreshed"

  /** The rate object of a response, when the response has a truthy one. */
  predicate HasRate(data: Json) {
    data.JObj? && RateKey in data.fields && Truthy(data.fields[RateKey])
  }

  /** The quote shaping exactly as written: only URLError, JSONDecodeError,
      KeyError and ValueError are caught, so `.get` on a rate value that is not
      an object (AttributeError) and `float` of a null, list or object
      (TypeError) escape as `Crashed`. */
  function ShapeQuoteAsWritten(data: Json): (r: FeedResult)
    ensures r.GotQuote? ==>
      && r.quote.symbol == "USDJPY" && r.quote.name == "USD/JPY"
      && r.quote.change == 0.0 && r.quote.changePct == 0.0
    ensures r.GotQuote? <==>
      && HasRate(data) && data.fields[RateKey].JObj?
      && (PriceKey in data.fields[RateKey].fields ==> ToFloat(data.fields[RateKey].fields[PriceKey]).Number?)
    ensures r == NoQuote <==>
      || (data.JObj? && !HasRate(data))
      || (HasRate(data) && data.fields[RateKey].JObj?
          && PriceKey in data.fields[RateKey].fields
          && ToFloat(data.fields[RateKey].fields[PriceKey]).ValueError?)
    ensures r.GotQuote? ==>
      HasRate(data) && data.fields[RateKey].JObj?
      && var rate := data.fields[RateKey].fields;
      && (PriceKey in rate ==> ToFloat(rate[PriceKey]) == Number(r.quote.price))
      && (PriceKey !in rate ==> r.quote.price == 0.0)
      && r.quote.lastRefreshed == (if RefreshedKey in rate then rate[RefreshedKey] else JStr(""))
    ensures r.Crashed? <==>
      || !data.JObj?
      || (HasRate(data) && !data.fields[RateKey].JObj?)
      || (HasRate(data) && data.fields[RateKey].JObj?
          && PriceKey in data.fields[RateKey].fields
          && ToFloat(data.fields[RateKey].fields[PriceKey]).TypeError?)
  {
    if !data.JObj? then Crashed
    else if !HasRate(data) then NoQuote
    else match data.fields[RateKey]
      case JObj(rate) =>
        (match if PriceKey in rate then ToFloat(rate[PriceKey]) else Number(0.0)
         case Number(p) =>
           GotQuote(Quote("USDJPY", "USD/JPY", p, 0.0, 0.0,
             if RefreshedKey in rate then rate[RefreshedKey] else JStr("")))
         case ValueError => NoQuote
         case TypeError => Crashed)
      case _ => Crashed
  }

  /** `fetch_usdjpy` as written, from the request's outcome. A request that
      could not be sent and an undecodable body are caught and give `None`. A
      connection that failed after sending escapes. */
  function FetchAsWritten(resp: Response): (r: FeedResult)
    ensures resp.Unreachable? || resp.Undecodable? ==> r == NoQuote
    ensures resp.Interrupted? ==> r == Crashed
    ensures resp.Decoded? ==> r == ShapeQuoteAsWritten(resp.body)
  {
    match resp
    case Decoded(data) => ShapeQuoteAsWritten(data)
    case Interrupted => Crashed
    case _ => NoQuote
  }

  /** Malformed rate data escapes `fetch_usdjpy` as an exception. */
  lemma MalformedRateEscapes()
    ensures FetchAsWritten(Decoded(JObj(map[RateKey := JObj(map[PriceKey := JNull])]))) == Crashed
    ensures FetchAsWritten(Decoded(JObj(map[RateKey := JStr("n/a")]))) == Crashed
  {
    var rate := JObj(map[PriceKey := JNull]);
    assert |rate.fields| == 1;
    assert Truthy(rate);
    assert Truthy(JStr("n/a"));
  }

  /** A read timeout or a dropped connection escapes `fetch_usdjpy` as
      written. The corrected fetch gives no quote instead. */
  lemma InterruptedReadEscapes()
    ensures FetchAsWritten(Interrupted) == Crashed
    ensures FetchQuote(Interrupted) == None
  {
  }

  /** `fetch_usdjpy` as evidently intended: every failure to extract a quote
      gives `None`, and a quote is produced exactly when the as-written code
      produces one. */
  function FetchQuote(resp: Response): (r: Option<Quote>)
    ensures r.Some? <==> FetchAsWritten(resp).GotQuote?
    ensures r.Some? ==> r.value == FetchAsWritten(resp).quote
    ensures r.Some? ==>
      && r.value.symbol == "USDJPY" && r.value.name == "USD/JPY"
      && r.value.change == 0.0 && r.value.changePct == 0.0
    ensures r.Some? <==>
      && resp.Decoded? && HasRate(resp.body) && resp.body.fields[RateKey].JObj?
      && (PriceKey in resp.body.fields[RateKey].fields ==>
            ToFloat(resp.body.fields[RateKey].fields[PriceKey]).Number?)
  {
    match FetchAsWritten(resp)
    case GotQuote(q) => Some(q)
    case _ => None
  }
}

=== FILE: fetch_snapshot.dfy ===
/** `build_snapshot` and the decisions of `main` in fetch_snapshot.py: CSV rows
    (each a column -> text map, as csv.DictReader yields them) and an optional
    quote become a dated snapshot with one list per category. */
module FetchSnapshot {
  import opened Wrappers
  import opened Text
  import opened Numbers
  import opened Feed

  /** One CSV row: column name -> cell text. */
  type Row = map<string, string>

  /** `row.get(column, "")`. */
  function Cell(row: Row, column: string): string {
    if column in row then row[column] else ""
  }

  datatype Category = Equity | Commodities | Crypto

  function CategoryName(c: Category): string {
    match c
    case Equity => "equity"
    case Commodities => "commodities"
    case Crypto => "crypto"
  }

  /** `category.strip().lower()`. */
  function NormalizeCategory(raw: string): string {
    LowerAscii(Strip(raw))
  }

  /** The category a raw value names after normalisation, if it is one of the three. */
  function ParseCategory(raw: string): (r: Option<Category>)
    ensures r.Some? ==> NormalizeCategory(raw) == CategoryName(r.value)
    ensures r.None? ==> forall c: Category :: NormalizeCategory(raw) != CategoryName(c)
  {
    var n := NormalizeCategory(raw);
    if n == "equity" then Some(Equity)
    else if n == "commodities" then Some(Commodities)
    else if n == "crypto" then Some(Crypto)
    else None
  }

  function RowCategory(row: Row): Option<Category> {
    ParseCategory(Cell(row, "category"))
  }

  /** A row `build_snapshot` keeps. */
  predicate Accepted(row: Row) {
    RowCategory(row).Some?
  }

  /** A normalised instrument; `unit` is present only on some commodities. */
  datatype Item = Item(
    symbol: string,
    name: string,
    price: real,
    change: real,
    changePct: real,
    unit: Option<string>)

  /** The fatal `float()` failure: which column, and its text. */
  datatype BuildError = BadNumber(column: string, text: string)

  /** `float(row.get(column, 0))`: an absent column is 0, a present one must parse. */
  function NumberCell(row: Row, column: string): (r: Result<real, BuildError>)
    ensures column !in row ==> r == Success(0.0)
    ensures column in row ==>
      (r.Success? <==> FloatOf(row[column]).Some?)
      && (r.Success? ==> r.value == FloatOf(row[column]).value)
      && (r.Failure? ==> r.error == BadNumber(column, row[column]))
  {
    if column !in row then Success(0.0)
    else match FloatOf(row[column])
      case Some(v) => Success(v)
      case None => Failure(BadNumber(column, row[column]))
  }

  predicate NumericOk(row: Row, column: string) {
    column !in row || FloatOf(row[column]).Some?
  }

  /** The row's price, change and change_pct all coerce. */
  predicate NumbersOk(row: Row) {
    NumericOk(row, "price") && NumericOk(row, "change") && NumericOk(row, "change_pct")
  }

  /** The item dict for an accepted row of category `c` once its numbers are
      coerced: trimmed symbol and name, and a unit only on a commodity whose
      trimmed unit is non-empty. */
  function MakeItem(row: Row, c: Category, price: real, change: real, pct: real): (it: Item)
    ensures it.symbol == Strip(Cell(row, "symbol")) && it.name == Strip(Cell(row, "name"))
    ensures it.price == price && it.change == change && it.changePct == pct
    ensures it.unit.Some? <==> c == Commodities && Strip(Cell(row, "unit")) != ""
    ensures it.unit.Some? ==> it.unit.value == Strip(Cell(row, "unit"))
  {
    var unit := Strip(Cell(row, "unit"));
    Item(Strip(Cell(row, "symbol")), Strip(Cell(row, "name")), price, change, pct,
      if c == Commodities && unit != "" then Some(unit) else None)
  }

  /** The column whose `float()` fails first, in the order the dict literal
      evaluates them. */
  predicate FirstBad(row: Row, column: string) {
    && column in row && FloatOf(row[column]).None?
    && (column == "price"
        || (NumericOk(row, "price")
            && (column == "change" || (NumericOk(row, "change") && column == "change_pct"))))
  }

  /** The item built for an accepted row of category `c`, or the coercion error. */
  function BuildItem(row: Row, c: Category): (r: Result<Item, BuildError>)
    ensures r.Success? <==> NumbersOk(row)
    ensures r.Failure? ==> FirstBad(row, r.error.column)
    ensures r.Success? ==>
      && NumberCell(row, "price") == Success(r.value.price)
      && NumberCell(row, "change") == Success(r.value.change)
      && NumberCell(row, "change_pct") == Success(r.value.changePct)
      && r.value == MakeItem(row, c, r.value.price, r.value.change, r.value.changePct)
  {
    match NumberCell(row, "price")
    case Failure(e) => Failure(e)
    case Success(price) =>
      match NumberCell(row, "change")
      case Failure(e) => Failure(e)
      case Success(change) =>
        match NumberCell(row, "change_pct")
        case Failure(e) => Failure(e)
        case Success(pct) => Success(MakeItem(row, c, price, change, pct))
  }

  /** The three source-derived lists. */
  datatype Buckets = Buckets(equity: seq<Item>, commodities: seq<Item>, crypto: seq<Item>)

  function Bucket(b: Buckets, c: Category): seq<Item> {
    match c
    case Equity => b.equity
    case Commodities => b.commodities
    case Crypto => b.crypto
  }

  /** The rows of category `c`, in source order: the reference the builder is
      measured against. */
  function Select(rows: seq<Row>, c: Category): seq<Row>
    decreases |rows|
  {
    if |rows| == 0 then []
    else (if RowCategory(rows[0]) == Some(c) then [rows[0]] else []) + Select(rows[1..], c)
  }

  /** BuildItem applied to each row in turn; the first failure wins. */
  function ItemsOf(sel: seq<Row>, c: Category): (r: Result<seq<Item>, BuildError>)
    decreases |sel|
  {
    if |sel| == 0 then Success([])
    else match BuildItem(sel[0], c)
      case Failure(e) => Failure(e)
      case Success(item) =>
        match ItemsOf(sel[1..], c)
        case Failure(e) => Failure(e)
        case Success(items) => Success([item] + items)
  }

  /** `items` are the items of the selected rows of `c`, one for one and in order. */
  ghost predicate Filled(items: seq<Item>, rows: seq<Row>, c: Category) {
    ItemsOf(Select(rows, c), c) == Success(items)
  }

  /** Every accepted row coerces. */
  ghost predicate AllAcceptedNumeric(rows: seq<Row>) {
    forall i :: 0 <= i < |rows| && Accepted(rows[i]) ==> NumbersOk(rows[i])
  }

  lemma AllAcceptedCons(rows: seq<Row>)
    requires |rows| > 0
    ensures AllAcceptedNumeric(rows)
      <==> (Accepted(rows[0]) ==> NumbersOk(rows[0])) && AllAcceptedNumeric(rows[1..])
  {
    assert forall i :: 1 <= i < |rows| ==> rows[i] == rows[1..][i - 1];
  }

  lemma FilledSkip(items: seq<Item>, rows: seq<Row>, c: Category)
    requires |rows| > 0 && RowCategory(rows[0]) != Some(c)
    requires Filled(items, rows[1..], c)
    ensures Filled(items, rows, c)
  {
    assert Select(rows, c) == Select(rows[1..], c);
  }

  lemma FilledTake(item: Item, items: seq<Item>, rows: seq<Row>, c: Category)
    requires |rows| > 0 && RowCategory(rows[0]) == Some(c)
    requires BuildItem(rows[0], c) == Success(item)
    requires Filled(items, rows[1..], c)
    ensures Filled([item] + items, rows, c)
  {
    var sel := Select(rows, c);
    assert sel == [rows[0]] + Select(rows[1..], c);
    assert sel[1..] == Select(rows[1..], c);
  }

  ghost predicate FilledAll(b: Buckets, rows: seq<Row>) {
    && Filled(b.equity, rows, Equity)
    && Filled(b.commodities, rows, Commodities)
    && Filled(b.crypto, rows, Crypto)
  }

  /** Prepending the item of an accepted first row to its own bucket. */
  function Push(b: Buckets, c: Category, item: Item): (r: Buckets)
    ensures Bucket(r, c) == [item] + Bucket(b, c)
    ensures forall d :: d != c ==> Bucket(r, d) == Bucket(b, d)
  {
    match c
    case Equity => b.(equity := [item] + b.equity)
    case Commodities => b.(commodities := [item] + b.commodities)
    case Crypto => b.(crypto := [item] + b.crypto)
  }

  lemma FilledPush(b: Buckets, rows: seq<Row>, c: Category, item: Item)
    requires |rows| > 0 && RowCategory(rows[0]) == Some(c)
    requires BuildItem(rows[0], c) == Success(item)
    requires FilledAll(b, rows[1..])
    ensures FilledAll(Push(b, c, item), rows)
  {
    match c
    case Equity =>
      FilledTake(item, b.equity, rows, c);
      FilledSkip(b.commodities, rows, Commodities);
      FilledSkip(b.crypto, rows, Crypto);
    case Commodities =>
      FilledSkip(b.equity, rows, Equity);
      FilledTake(item, b.commodities, rows, c);
      FilledSkip(b.crypto, rows, Crypto);
    case Crypto =>
      FilledSkip(b.equity, rows, Equity);
      FilledSkip(b.commodities, rows, Commodities);
      FilledTake(item, b.crypto, rows, c);
  }

  lemma FilledSkipAll(b: Buckets, rows: seq<Row>)
    requires |rows| > 0 && RowCategory(rows[0]).None?
    requires FilledAll(b, rows[1..])
    ensures FilledAll(b, rows)
  {
    FilledSkip(b.equity, rows, Equity);
    FilledSkip(b.commodities, rows, Commodities);
    FilledSkip(b.crypto, rows, Crypto);
  }

  /** One iteration of the loop of `build_snapshot`: an unknown category is
      skipped before any coercion, a bad number aborts, an item joins the
      front of its category's list. */
  function Step(row: Row, rest: Result<Buckets, BuildError>): Result<Buckets, BuildError> {
    match RowCategory(row)
    case None => rest
    case Some(c) =>
      match BuildItem(row, c)
      case Failure(e) => Failure(e)
      case Success(item) =>
        match rest
        case Failure(e) => Failure(e)
        case Success(b) => Success(Push(b, c, item))
  }

  lemma StepSpec(rows: seq<Row>, rest: Result<Buckets, BuildError>)
    requires |rows| > 0
    requires rest.Success? <==> AllAcceptedNumeric(rows[1..])
    requires rest.Success? ==> FilledAll(rest.value, rows[1..])
    ensures Step(rows[0], rest).Success? <==> AllAcceptedNumeric(rows)
    ensures Step(rows[0], rest).Success? ==> FilledAll(Step(rows[0], rest).value, rows)
  {
    AllAcceptedCons(rows);
    match RowCategory(rows[0])
    case None =>
      if rest.Success? {
        FilledSkipAll(rest.value, rows);
      }
    case Some(c) =>
      if BuildItem(rows[0], c).Success? && rest.Success? {
        FilledPush(rest.value, rows, c, BuildItem(rows[0], c).value);
      }
  }

  /** The loop of `build_snapshot` over all rows, in source order, the first
      bad number aborting. */
  function Categorise(rows: seq<Row>): (r: Result<Buckets, BuildError>)
    ensures r.Success? <==> AllAcceptedNumeric(rows)
    ensures r.Success? ==> FilledAll(r.value, rows)
    decreases |rows|
  {
    if |rows| == 0 then Success(Buckets([], [], []))
    else
      var rest := Categorise(rows[1..]);
      StepSpec(rows, rest);
      Step(rows[0], rest)
  }

  /** The snapshot written to market_snapshot.json. */
  datatype Snapshot = Snapshot(
    date: string,
    equity: seq<Item>,
    commodities: seq<Item>,
    crypto: seq<Item>,
    fx: seq<Quote>)

  /** `build_snapshot(rows, fx_data)` with the JST date passed in. */
  function BuildSnapshot(date: string, rows: seq<Row>, fx: Option<Quote>): (r: Result<Snapshot, BuildError>)
    ensures r.Success? <==> AllAcceptedNumeric(rows)
    ensures r.Success? ==>
      && r.value.date == date
      && FilledAll(Buckets(r.value.equity, r.value.commodities, r.value.crypto), rows)
      && r.value.fx == (if fx.Some? then [fx.value] else [])
  {
    match Categorise(rows)
    case Failure(e) => Failure(e)
    case Success(b) =>
      Success(Snapshot(date, b.equity, b.commodities, b.crypto,
        if fx.Some? then [fx.value] else []))
  }

  lemma NameIsLowerLetters(c: Category)
    ensures |CategoryName(c)| > 0
    ensures forall i :: 0 <= i < |CategoryName(c)| ==> 'a' <= CategoryName(c)[i] <= 'z'
  {
  }

  /** The category is trimmed and lower-cased before the membership test: any
      whitespace around any capitalisation of a category's name selects it. */
  lemma CategoryIgnoresPaddingAndCase(pre: string, word: string, post: string, c: Category)
    requires AllSpace(pre) && AllSpace(post)
    requires LowerAscii(word) == CategoryName(c)
    ensures ParseCategory(pre + word + post) == Some(c)
  {
    NameIsLowerLetters(c);
    var n := CategoryName(c);
    assert LowerChar(word[0]) == n[0];
    assert LowerChar(word[|word| - 1]) == n[|n| - 1];
    LowerLetterIsNotSpace(word[0]);
    LowerLetterIsNotSpace(word[|word| - 1]);
    StripPadding(pre, word, post);
    assert NormalizeCategory(pre + word + post) == n;
    NamedCategory(pre + word + post, c);
  }

  /** A value that normalises to a category's name parses as that category. */
  lemma NamedCategory(raw: string, c: Category)
    requires NormalizeCategory(raw) == CategoryName(c)
    ensures ParseCategory(raw) == Some(c)
  {
  }

  lemma LowerLetterIsNotSpace(x: char)
    requires 'a' <= LowerChar(x) <= 'z'
    ensures !IsSpace(x)
  {
  }

  lemma EquityWord()
    ensures LowerAscii("Equity") == "equity"
  {
  }

  /** `" Equity "` lands in equity. */
  lemma PaddedEquityIsAccepted()
    ensures ParseCategory(" Equity ") == Some(Equity)
  {
    EquityWord();
    assert " Equity " == " " + "Equity" + " ";
    CategoryIgnoresPaddingAndCase(" ", "Equity", " ", Equity);
  }

  lemma FxLower()
    ensures LowerAscii("fx") == "fx"
  {
  }

  lemma FxWord()
    ensures NormalizeCategory("fx") == "fx"
  {
    StripUnpadded("fx");
    FxLower();
  }

  /** A CSV row that says `fx` is not one of the three: the feed category is
      never filled from the source. */
  lemma FxRowIsDropped(row: Row)
    requires Cell(row, "category") == "fx"
    ensures !Accepted(row)
  {
    FxWord();
  }

  /** A row whose category is not one of the three changes nothing, wherever it
      stands and whatever its other cells hold, malformed numbers included:
      the skip happens before any coercion. */
  lemma {:induction false} DroppedRowIsInert(before: seq<Row>, row: Row, after: seq<Row>)
    requires !Accepted(row)
    ensures Categorise(before + [row] + after) == Categorise(before + after)
    decreases |before|
  {
    ConsSplit(before, row, after);
    if |before| == 0 {
      DroppedFirst(row, after);
    } else {
      DroppedRowIsInert(before[1..], row, after);
      SameTailSameResult(before[0], before[1..] + [row] + after, before[1..] + after);
    }
  }

  lemma ConsSplit<T>(before: seq<T>, x: T, after: seq<T>)
    ensures |before| == 0 ==> before + [x] + after == [x] + after && before + after == after
    ensures |before| > 0 ==>
      && before + [x] + after == [before[0]] + (before[1..] + [x] + after)
      && before + after == [before[0]] + (before[1..] + after)
  {
    if |before| > 0 {
      assert before == [before[0]] + before[1..];
    }
  }

  lemma DroppedFirst(row: Row, after: seq<Row>)
    requires !Accepted(row)
    ensures Categorise([row] + after) == Categorise(after)
  {
    CategoriseCons(row, after);
    SkipStep(row, Categorise(after));
  }

  lemma SameTailSameResult(row: Row, xs: seq<Row>, ys: seq<Row>)
    requires Categorise(xs) == Categorise(ys)
    ensures Categorise([row] + xs) == Categorise([row] + ys)
  {
    CategoriseCons(row, xs);
    CategoriseCons(row, ys);
  }

  /** The loop handles the first row, then the rest. */
  lemma CategoriseCons(row: Row, rest: seq<Row>)
    ensures Categorise([row] + rest) == Step(row, Categorise(rest))
  {
    assert ([row] + rest)[1..] == rest;
  }

  /** A row of unknown category passes the loop's state through. */
  lemma SkipStep(row: Row, rest: Result<Buckets, BuildError>)
    requires !Accepted(row)
    ensures Step(row, rest) == rest
  {
  }

  lemma DroppedRowIsInertInSnapshot(date: string, before: seq<Row>, row: Row, after: seq<Row>, fx: Option<Quote>)
    requires !Accepted(row)
    ensures BuildSnapshot(date, before + [row] + after, fx) == BuildSnapshot(date, before + after, fx)
  {
    DroppedRowIsInert(before, row, after);
  }

  /** ItemsOf succeeds item for row, in order. */
  lemma {:induction false} ItemsOfPointwise(sel: seq<Row>, c: Category, items: seq<Item>)
    requires ItemsOf(sel, c) == Success(items)
    ensures |items| == |sel|
    ensures forall k :: 0 <= k < |sel| ==> BuildItem(sel[k], c) == Success(items[k])
    decreases |sel|
  {
    if |sel| > 0 {
      ItemsOfPointwise(sel[1..], c, items[1..]);
      forall k | 1 <= k < |sel|
        ensures BuildItem(sel[k], c) == Success(items[k])
      {
        assert sel[k] == sel[1..][k - 1];
      }
    }
  }

  lemma BucketUnits(sel: seq<Row>, c: Category, items: seq<Item>)
    requires ItemsOf(sel, c) == Success(items)
    ensures |items| == |sel|
    ensures forall k :: 0 <= k < |items| ==>
      (items[k].unit.Some? <==> c == Commodities && Strip(Cell(sel[k], "unit")) != "")
      && (items[k].unit.Some? ==> items[k].unit.value == Strip(Cell(sel[k], "unit")))
  {
    ItemsOfPointwise(sel, c, items);
    forall k | 0 <= k < |items|
      ensures (items[k].unit.Some? <==> c == Commodities && Strip(Cell(sel[k], "unit")) != "")
      ensures items[k].unit.Some? ==> items[k].unit.value == Strip(Cell(sel[k], "unit"))
    {
      assert BuildItem(sel[k], c) == Success(items[k]);
    }
  }

  /** Equity and crypto items never carry a unit. */
  lemma NoUnitOutsideCommodities(date: string, rows: seq<Row>, fx: Option<Quote>)
    requires BuildSnapshot(date, rows, fx).Success?
    ensures var s := BuildSnapshot(date, rows, fx).value;
      && (forall k :: 0 <= k < |s.equity| ==> s.equity[k].unit.None?)
      && (forall k :: 0 <= k < |s.crypto| ==> s.crypto[k].unit.None?)
  {
    var s := BuildSnapshot(date, rows, fx).value;
    assert FilledAll(Buckets(s.equity, s.commodities, s.crypto), rows);
    BucketUnits(Select(rows, Equity), Equity, s.equity);
    BucketUnits(Select(rows, Crypto), Crypto, s.crypto);
  }

  /** The k-th commodity carries a unit exactly when the k-th commodities row
      has a non-empty trimmed unit cell, and then carries that text. */
  lemma CommodityUnits(date: string, rows: seq<Row>, fx: Option<Quote>, k: nat)
    requires BuildSnapshot(date, rows, fx).Success?
    requires k < |BuildSnapshot(date, rows, fx).value.commodities|
    ensures k < |Select(rows, Commodities)|
    ensures var item := BuildSnapshot(date, rows, fx).value.commodities[k];
      var unit := Strip(Cell(Select(rows, Commodities)[k], "unit"));
      && (item.unit.Some? <==> unit != "")
      && (item.unit.Some? ==> item.unit.value == unit)
  {
    var s := BuildSnapshot(date, rows, fx).value;
    assert FilledAll(Buckets(s.equity, s.commodities, s.crypto), rows);
    BucketUnits(Select(rows, Commodities), Commodities, s.commodities);
  }

  /** Where the loaded rows came from: csv.DictReader's outcome. */
  datatype SourceLoad = Loaded(rows: seq<Row>) | SourceMissing | SourceMalformed

  /** The stage of `main` that failed. */
  datatype Cause =
    | FeedCrashed
    | FileNotFound
    | CsvError
    | ConversionFailed(error: BuildError)
    | WriteFailed

  /** Either the snapshot `main` saved, or why it stopped without saving. */
  datatype RunOutcome = Saved(snapshot: Snapshot) | Aborted(cause: Cause)

  /** `main`'s return value. */
  function ExitCode(o: RunOutcome): (code: int)
    ensures code == 0 <==> o.Saved?
    ensures code == 0 || code == 1
  {
    if o.Saved? then 0 else 1
  }

  /** The quote `main` passes on: the feed is consulted only with a non-empty key. */
  function QuoteUsed(apiKey: string, feed: FeedResult): Option<Quote> {
    if apiKey != "" && feed.GotQuote? then Some(feed.quote) else None
  }

  /** `main` given the feed's result: fetch only with a non-empty key (an
      exception escaping the fetch lands in the generic handler), then load,
      build and save, any failure giving up without a snapshot. */
  function RunWith(apiKey: string, feed: FeedResult, source: SourceLoad, date: string, writable: bool): (o: RunOutcome)
    ensures o.Saved? <==>
      && (apiKey == "" || !feed.Crashed?)
      && source.Loaded? && AllAcceptedNumeric(source.rows)
      && writable
    ensures o.Saved? ==>
      && o.snapshot.date == date
      && o.snapshot.fx == (if QuoteUsed(apiKey, feed).Some? then [QuoteUsed(apiKey, feed).value] else [])
      && FilledAll(Buckets(o.snapshot.equity, o.snapshot.commodities, o.snapshot.crypto), source.rows)
    ensures (apiKey == "" || !feed.Crashed?) && source.Loaded? && !AllAcceptedNumeric(source.rows) ==>
      o.Aborted? && o.cause.ConversionFailed?
  {
    if apiKey != "" && feed.Crashed? then Aborted(FeedCrashed)
    else match source
      case SourceMissing => Aborted(FileNotFound)
      case SourceMalformed => Aborted(CsvError)
      case Loaded(rows) =>
        match BuildSnapshot(date, rows, QuoteUsed(apiKey, feed))
        case Failure(e) => Aborted(ConversionFailed(e))
        case Success(s) => if writable then Saved(s) else Aborted(WriteFailed)
  }

  /** With an empty key the feed is never consulted: the run is the same
      whatever the feed would have answered, and `fx` stays empty. */
  lemma NoKeyNoFetch(feed1: FeedResult, feed2: FeedResult, source: SourceLoad, date: string, writable: bool)
    ensures RunWith("", feed1, source, date, writable) == RunWith("", feed2, source, date, writable)
    ensures RunWith("", feed1, source, date, writable).Saved? ==>
      RunWith("", feed1, source, date, writable).snapshot.fx == []
  {
  }

  function AsFeedResult(q: Option<Quote>): FeedResult {
    match q
    case Some(v) => GotQuote(v)
    case None => NoQuote
  }

  /** `main` with the corrected fetch: the feed can add a quote but never
      decides whether the run succeeds. */
  function Run(apiKey: string, resp: Response, source: SourceLoad, date: string, writable: bool): (o: RunOutcome)
    ensures o.Saved? <==> source.Loaded? && AllAcceptedNumeric(source.rows) && writable
    ensures o.Aborted? ==> !o.cause.FeedCrashed?
    ensures o.Saved? ==>
      && o.snapshot.date == date
      && o.snapshot.fx == (if apiKey != "" && FetchQuote(resp).Some? then [FetchQuote(resp).value] else [])
      && FilledAll(Buckets(o.snapshot.equity, o.snapshot.commodities, o.snapshot.crypto), source.rows)
  {
    RunWith(apiKey, AsFeedResult(FetchQuote(resp)), source, date, writable)
  }

  /** A non-numeric price, change or change_pct on an accepted row makes `main`
      return 1 with nothing saved. */
  lemma BadNumberFailsRun(apiKey: string, resp: Response, rows: seq<Row>, i: nat, date: string, writable: bool)
    requires i < |rows| && Accepted(rows[i]) && !NumbersOk(rows[i])
    ensures var o := Run(apiKey, resp, Loaded(rows), date, writable);
      ExitCode(o) == 1 && o.cause.ConversionFailed?
  {
  }

  /** As written, a rate value that is not an object, or a connection that
      fails after the request was sent, escapes `fetch_usdjpy`, and `main`
      returns 1 without a snapshot, although the CSV alone would have produced
      one; with the corrected fetch the same run succeeds. */
  lemma FeedCrashAbortsRunAsWritten(date: string)
    ensures var resp := Decoded(JObj(map[RateKey := JStr("n/a")]));
      && ExitCode(RunWith("key", FetchAsWritten(resp), Loaded([]), date, true)) == 1
      && ExitCode(Run("key", resp, Loaded([]), date, true)) == 0
    ensures ExitCode(RunWith("key", FetchAsWritten(Interrupted), Loaded([]), date, true)) == 1
    ensures ExitCode(Run("key", Interrupted, Loaded([]), date, true)) == 0
  {
    MalformedRateEscapes();
  }
}

=== FILE: game_utils.dfy ===
/** The helpers of the number-guessing game: the praise chosen from the number
    of attempts (`display_result`) and the prompt that keeps asking until it
    reads an integer in range (`get_valid_input`). Console output is left out;
    the lines typed at the prompt are a parameter. */
module GameUtils {
  import opened Wrappers
  import opened Numbers

  const FirstTry := "すごい！一発正解！"
  const Great := "素晴らしい！"
  const Good := "なかなか良いですね！"
  const TryFewer := "次はもっと少ない回数で！"

  /** The message `display_result` prints under the attempt count. */
  function ResultMessage(attempts: int): (m: string)
    ensures m == FirstTry <==> attempts == 1
    ensures m == Great <==> attempts != 1 && attempts <= 5
    ensures m == Good <==> 6 <= attempts <= 10
    ensures m == TryFewer <==> attempts > 10
  {
    if attempts == 1 then FirstTry
    else if attempts <= 5 then Great
    else if attempts <= 10 then Good
    else TryFewer
  }

  /** How good a message is: 0 is the best. */
  function Rank(m: string): nat {
    if m == FirstTry then 0 else if m == Great then 1 else if m == Good then 2 else 3
  }

  /** Among real games (at least one attempt), needing more attempts never
      earns better praise. */
  lemma PraiseNeverImproves(a: int, b: int)
    requires 1 <= a <= b
    ensures Rank(ResultMessage(a)) <= Rank(ResultMessage(b))
    ensures a == 1 < b ==> Rank(ResultMessage(a)) < Rank(ResultMessage(b))
  {
  }

  /** What `int(...)` makes of each line typed at the prompt, in order;
      `None` stands for the `ValueError` it raises. */
  function Readings(inputs: seq<string>): (vals: seq<Option<int>>)
    ensures |vals| == |inputs|
    decreases |inputs|
  {
    if |inputs| == 0 then [] else [IntOf(inputs[0])] + Readings(inputs[1..])
  }

  /** Each reading is `int` of its own line. */
  lemma {:induction false} ReadingAt(inputs: seq<string>, i: nat)
    requires i < |inputs|
    ensures Readings(inputs)[i] == IntOf(inputs[i])
    decreases i
  {
    if i > 0 {
      ReadingAt(inputs[1..], i - 1);
    }
  }

  /** Reading is line by line, so it commutes with joining and cutting input. */
  lemma {:induction false} ReadingsAppend(a: seq<string>, b: seq<string>)
    ensures Readings(a + b) == Readings(a) + Readings(b)
    decreases |a|
  {
    if |a| == 0 {
      assert a + b == b;
    } else {
      assert (a + b)[0] == a[0];
      assert (a + b)[1..] == a[1..] + b;
      ReadingsAppend(a[1..], b);
    }
  }

  lemma ReadingsSlice(inputs: seq<string>, n: nat)
    requires n <= |inputs|
    ensures Readings(inputs[..n]) == Readings(inputs)[..n]
    ensures Readings(inputs[n..]) == Readings(inputs)[n..]
  {
    assert inputs == inputs[..n] + inputs[n..];
    ReadingsAppend(inputs[..n], inputs[n..]);
  }

  /** A reading is taken: an integer within `[lo, hi]`. */
  predicate InRange(lo: int, hi: int, v: Option<int>) {
    v.Some? && lo <= v.value <= hi
  }

  /** One line typed at the prompt is taken. */
  predicate Acceptable(lo: int, hi: int, line: string) {
    InRange(lo, hi, IntOf(line))
  }

  /** What a successful prompt returns, and how many lines it read. */
  datatype Entry = Entry(guess: int, consumed: nat)

  /** The prompt loop over readings: skip until one is in range. */
  function FirstInRange(lo: int, hi: int, vals: seq<Option<int>>): (r: Option<Entry>)
    ensures r.Some? ==>
      && 1 <= r.value.consumed <= |vals|
      && vals[r.value.consumed - 1] == Some(r.value.guess)
      && lo <= r.value.guess <= hi
    decreases |vals|
  {
    if |vals| == 0 then None
    else if InRange(lo, hi, vals[0]) then Some(Entry(vals[0].value, 1))
    else
      match FirstInRange(lo, hi, vals[1..])
      case None => None
      case Some(e) => Some(Entry(e.guess, e.consumed + 1))
  }

  /** `get_valid_input(lo, hi)` over the lines typed at the prompt. Lines that
      are not integers and integers out of range are skipped; `None` means the
      lines ran out first, where `input()` would raise `EOFError`. */
  function GetValidInput(lo: int, hi: int, inputs: seq<string>): (r: Option<Entry>)
    ensures r.Some? ==>
      && lo <= r.value.guess <= hi
      && 1 <= r.value.consumed <= |inputs|
      && Readings(inputs)[r.value.consumed - 1] == Some(r.value.guess)
  {
    FirstInRange(lo, hi, Readings(inputs))
  }

  /** The loop keeps asking past every rejected reading, and gives up only
      when every reading is rejected. */
  lemma {:induction false} SkipsRejected(lo: int, hi: int, vals: seq<Option<int>>)
    ensures var r := FirstInRange(lo, hi, vals);
      && (r.Some? ==> forall j :: 0 <= j < r.value.consumed - 1 ==> !InRange(lo, hi, vals[j]))
      && (r.None? <==> forall j :: 0 <= j < |vals| ==> !InRange(lo, hi, vals[j]))
    decreases |vals|
  {
    if |vals| > 0 && !InRange(lo, hi, vals[0]) {
      var tail := vals[1..];
      SkipsRejected(lo, hi, tail);
      assert forall j :: 1 <= j < |vals| ==> vals[j] == tail[j - 1];
    }
  }

  /** The prompt returns the first acceptable line: every line before it is
      rejected, and it gives up only when every line is rejected. */
  lemma PromptSkipsRejected(lo: int, hi: int, inputs: seq<string>)
    ensures var r := GetValidInput(lo, hi, inputs);
      && (r.Some? ==> forall j :: 0 <= j < r.value.consumed - 1 ==> !Acceptable(lo, hi, inputs[j]))
      && (r.None? <==> forall j :: 0 <= j < |inputs| ==> !Acceptable(lo, hi, inputs[j]))
  {
    SkipsRejected(lo, hi, Readings(inputs));
    forall j | 0 <= j < |inputs|
      ensures Acceptable(lo, hi, inputs[j]) == InRange(lo, hi, Readings(inputs)[j])
    {
      ReadingAt(inputs, j);
    }
  }

  /** Reference definition: every value in range among the readings, in order. */
  function InRangeValues(lo: int, hi: int, vals: seq<Option<int>>): (g: seq<int>)
    ensures forall i :: 0 <= i < |g| ==> lo <= g[i] <= hi
    ensures |g| <= |vals|
    decreases |vals|
  {
    if |vals| == 0 then []
    else (if InRange(lo, hi, vals[0]) then [vals[0].value] else []) + InRangeValues(lo, hi, vals[1..])
  }

  /** Every value the prompt would accept from these lines, in order. */
  function AcceptedGuesses(lo: int, hi: int, inputs: seq<string>): (g: seq<int>)
    ensures forall i :: 0 <= i < |g| ==> lo <= g[i] <= hi
  {
    InRangeValues(lo, hi, Readings(inputs))
  }

  /** Values of two stretches of readings concatenate. */
  lemma {:induction false} InRangeSplit(lo: int, hi: int, a: seq<Option<int>>, b: seq<Option<int>>)
    ensures InRangeValues(lo, hi, a + b) == InRangeValues(lo, hi, a) + InRangeValues(lo, hi, b)
    decreases |a|
  {
    if |a| > 0 {
      var head := if InRange(lo, hi, a[0]) then [a[0].value] else [];
      assert (a + b)[0] == a[0];
      assert (a + b)[1..] == a[1..] + b;
      InRangeSplit(lo, hi, a[1..], b);
      assert InRangeValues(lo, hi, a) == head + InRangeValues(lo, hi, a[1..]);
      assert InRangeValues(lo, hi, a + b) == head + InRangeValues(lo, hi, a[1..] + b);
    } else {
      assert a + b == b;
    }
  }

  /** Accepted guesses of two stretches of input concatenate. */
  lemma AcceptedSplit(lo: int, hi: int, a: seq<string>, b: seq<string>)
    ensures AcceptedGuesses(lo, hi, a + b) == AcceptedGuesses(lo, hi, a) + AcceptedGuesses(lo, hi, b)
  {
    ReadingsAppend(a, b);
    InRangeSplit(lo, hi, Readings(a), Readings(b));
  }

  /** Readings that are all rejected contribute nothing. */
  lemma {:induction false} NoneInRange(lo: int, hi: int, vals: seq<Option<int>>)
    requires forall j :: 0 <= j < |vals| ==> !InRange(lo, hi, vals[j])
    ensures InRangeValues(lo, hi, vals) == []
    decreases |vals|
  {
    if |vals| > 0 {
      NoneInRange(lo, hi, vals[1..]);
    }
  }

  /** The loop stops at the first value in range and reads nothing after it. */
  lemma TakesFirstInRange(lo: int, hi: int, vals: seq<Option<int>>)
    ensures var r := FirstInRange(lo, hi, vals);
      && (r.None? <==> InRangeValues(lo, hi, vals) == [])
      && (r.Some? ==>
            && InRangeValues(lo, hi, vals[..r.value.consumed]) == [r.value.guess]
            && InRangeValues(lo, hi, vals)
                 == [r.value.guess] + InRangeValues(lo, hi, vals[r.value.consumed..]))
  {
    SkipsRejected(lo, hi, vals);
    match FirstInRange(lo, hi, vals)
    case None =>
      NoneInRange(lo, hi, vals);
    case Some(e) =>
      var n := e.consumed;
      var skipped := vals[..n - 1];
      NoneInRange(lo, hi, skipped);
      assert InRangeValues(lo, hi, [vals[n - 1]][1..]) == [];
      assert vals[..n] == skipped + [vals[n - 1]];
      InRangeSplit(lo, hi, skipped, [vals[n - 1]]);
      assert vals == vals[..n] + vals[n..];
      InRangeSplit(lo, hi, vals[..n], vals[n..]);
  }

  /** The prompt returns the first accepted guess, and reads exactly up to the
      line that holds it; it returns nothing exactly when no line is accepted. */
  lemma PromptTakesFirstAccepted(lo: int, hi: int, inputs: seq<string>)
    ensures var r := GetValidInput(lo, hi, inputs);
      && (r.None? <==> AcceptedGuesses(lo, hi, inputs) == [])
      && (r.Some? ==>
            && AcceptedGuesses(lo, hi, inputs[..r.value.consumed]) == [r.value.guess]
            && AcceptedGuesses(lo, hi, inputs)
                 == [r.value.guess] + AcceptedGuesses(lo, hi, inputs[r.value.consumed..]))
  {
    var vals := Readings(inputs);
    TakesFirstInRange(lo, hi, vals);
    var r := GetValidInput(lo, hi, inputs);
    if r.Some? {
      ReadingsSlice(inputs, r.value.consumed);
    }
  }

  /** Lines typed after the accepted one are never read. */
  lemma LaterLinesUnread(lo: int, hi: int, inputs: seq<string>, more: seq<string>)
    requires GetValidInput(lo, hi, inputs).Some?
    ensures GetValidInput(lo, hi, inputs + more) == GetValidInput(lo, hi, inputs)
  {
    ReadingsAppend(inputs, more);
    LaterReadingsUnread(lo, hi, Readings(inputs), Readings(more));
  }

  lemma {:induction false} LaterReadingsUnread(lo: int, hi: int, vals: seq<Option<int>>, more: seq<Option<int>>)
    requires FirstInRange(lo, hi, vals).Some?
    ensures FirstInRange(lo, hi, vals + more) == FirstInRange(lo, hi, vals)
    decreases |vals|
  {
    assert (vals + more)[0] == vals[0];
    if !InRange(lo, hi, vals[0]) {
      assert (vals + more)[1..] == vals[1..] + more;
      LaterReadingsUnread(lo, hi, vals[1..], more);
    }
  }
}

=== FILE: guess_game.dfy ===
/** The number-guessing game: the hint for one guess (`check_guess`) and one
    round of play (`play_game`). The secret that `random.randint` would draw
    and the lines typed at the prompt are parameters. */
module GuessGame {
  import opened Wrappers
  import opened Numbers
  import opened GameUtils

  /** Which way the secret lies from a guess. */
  datatype Hint = Higher | Lower | Correct

  /** The line printed for each hint. */
  function HintText(h: Hint): string {
    match h
    case Higher => "もっと大きい数字です！"
    case Lower => "もっと小さい数字です！"
    case Correct => "正解！"
  }

  /** The comparison inside `check_guess`. */
  function Compare(guess: int, secret: int): (h: Hint)
    ensures h == Higher <==> guess < secret
    ensures h == Lower <==> guess > secret
    ensures h == Correct <==> guess == secret
  {
    if guess < secret then Higher
    else if guess > secret then Lower
    else Correct
  }

  /** `check_guess(guess, secret)`: the hint's line. */
  function CheckGuess(guess: int, secret: int): (hint: string)
    ensures hint == "もっと大きい数字です！" <==> guess < secret
    ensures hint == "もっと小さい数字です！" <==> guess > secret
    ensures hint == "正解！" <==> guess == secret
  {
    HintTextsDiffer();
    HintText(Compare(guess, secret))
  }

  /** The three lines are different, so the printed line tells the hint. */
  lemma HintTextsDiffer()
    ensures HintText(Higher) != HintText(Lower)
    ensures HintText(Higher) != HintText(Correct)
    ensures HintText(Lower) != HintText(Correct)
  {
    assert HintText(Higher)[3] != HintText(Lower)[3];
    assert HintText(Higher)[0] != HintText(Correct)[0];
    assert HintText(Lower)[0] != HintText(Correct)[0];
  }

  /** A wrong guess's hint rules out the guess and everything on its side of
      it. */
  lemma HintNarrowsRange(guess: int, secret: int, other: int)
    ensures Compare(guess, secret) == Higher && other <= guess ==> Compare(other, secret) == Higher
    ensures Compare(guess, secret) == Lower && other >= guess ==> Compare(other, secret) == Lower
  {
  }

  /** How a round ended: the attempt count `play_game` returns, how many lines
      it read, and the hints it printed, in order (each as its `HintText`). */
  datatype GameEnd = GameEnd(attempts: nat, consumed: nat, hints: seq<Hint>)

  /** The position (1-based) of the first occurrence of `x` in `g`. */
  function FirstIndex(g: seq<int>, x: int): (n: nat)
    requires x in g
    ensures 1 <= n <= |g| && g[n - 1] == x
    ensures forall i :: 0 <= i < n - 1 ==> g[i] != x
    decreases |g|
  {
    if g[0] == x then 1 else 1 + FirstIndex(g[1..], x)
  }

  /** The first occurrence is the one with no equal value before it. */
  lemma FirstIndexAt(g: seq<int>, x: int, n: nat)
    requires 1 <= n <= |g| && g[n - 1] == x
    requires forall i :: 0 <= i < n - 1 ==> g[i] != x
    ensures FirstIndex(g, x) == n
  {
  }

  /** One call of the prompt on the readings from `pos` on: either none left
      is in range, or it takes `c` of them, the last of which is its guess, and
      that guess is the next accepted one after those taken so far. */
  lemma Advance(lo: int, hi: int, vals: seq<Option<int>>, pos: nat)
    requires pos <= |vals|
    ensures var r := FirstInRange(lo, hi, vals[pos..]);
      && (r.None? ==> InRangeValues(lo, hi, vals[pos..]) == [])
      && (r.Some? ==>
            var c := r.value.consumed;
            && pos + c <= |vals|
            && vals[pos + c - 1] == Some(r.value.guess)
            && InRangeValues(lo, hi, vals[..pos + c]) == InRangeValues(lo, hi, vals[..pos]) + [r.value.guess]
            && InRangeValues(lo, hi, vals[pos..]) == [r.value.guess] + InRangeValues(lo, hi, vals[pos + c..]))
  {
    var rest := vals[pos..];
    TakesFirstInRange(lo, hi, rest);
    var r := FirstInRange(lo, hi, rest);
    if r.Some? {
      var c := r.value.consumed;
      assert vals[..pos + c] == vals[..pos] + rest[..c];
      InRangeSplit(lo, hi, vals[..pos], rest[..c]);
      assert rest[c..] == vals[pos + c..];
    }
  }

  lemma Regroup<T>(a: seq<T>, x: T, b: seq<T>)
    ensures a + ([x] + b) == (a + [x]) + b
  {
  }

  lemma PrefixOfConcat<T>(a: seq<T>, b: seq<T>)
    ensures (a + b)[..|a|] == a
  {
  }

  /** In `seen + [x] + rest` with `x` not in `seen`, the first `x` comes right
      after `seen`. */
  lemma FirstHit(g: seq<int>, seen: seq<int>, x: int, rest: seq<int>)
    requires g == seen + ([x] + rest) && x !in seen
    ensures x in g && FirstIndex(g, x) == |seen| + 1 && g[..|seen| + 1] == seen + [x]
  {
    Regroup(seen, x, rest);
    PrefixOfConcat(seen + [x], rest);
    assert g[|seen|] == x;
    FirstIndexAt(g, x, |seen| + 1);
  }

  /** Hints recorded for the first guesses are the hints of the whole list's
      first entries. */
  lemma HintsOfPrefix(pre: seq<int>, g: seq<int>, hints: seq<Hint>, secret: int)
    requires |pre| <= |g| && g[..|pre|] == pre && |hints| == |pre|
    requires forall i :: 0 <= i < |pre| ==> hints[i] == Compare(pre[i], secret)
    ensures forall i :: 0 <= i < |pre| ==> hints[i] == Compare(g[i], secret)
  {
    forall i | 0 <= i < |pre|
      ensures hints[i] == Compare(g[i], secret)
    {
      assert g[i] == pre[i];
    }
  }

  /** Recording one more guess and its hint keeps hints and guesses in step. */
  lemma HintsStep(seen: seq<int>, hints: seq<Hint>, guess: int, secret: int)
    requires |hints| == |seen|
    requires forall i :: 0 <= i < |seen| ==> hints[i] == Compare(seen[i], secret)
    ensures var h := hints + [Compare(guess, secret)];
      forall i :: 0 <= i < |seen| + 1 ==> h[i] == Compare((seen + [guess])[i], secret)
  {
  }

  /** What holds between rounds: the guesses taken from the first `pos`
      readings are where the accepted values of all readings start, none of
      them is the secret, and each has its hint. */
  ghost predicate BetweenRounds(lo: int, hi: int, secret: int, vals: seq<Option<int>>, pos: int, hints: seq<Hint>)
  {
    && 0 <= pos <= |vals|
    && var seen := InRangeValues(lo, hi, vals[..pos]);
    && InRangeValues(lo, hi, vals) == seen + InRangeValues(lo, hi, vals[pos..])
    && secret !in seen
    && |hints| == |seen|
    && (forall i :: 0 <= i < |seen| ==> hints[i] == Compare(seen[i], secret))
  }

  /** How a game over readings `vals` ends: with nothing exactly when the
      secret is never among the accepted guesses `g`; otherwise on the first
      accepted guess equal to the secret, with one attempt per accepted guess up
      to it, having read exactly the readings up to the one that holds it, and
      with the hint for each of those guesses in order. */
  ghost predicate Played(lo: int, hi: int, secret: int, vals: seq<Option<int>>, r: Option<GameEnd>) {
    && (r.None? <==> secret !in InRangeValues(lo, hi, vals))
    && (r.Some? ==>
          var g := InRangeValues(lo, hi, vals);
          var e := r.value;
          && e.attempts == FirstIndex(g, secret)
          && 1 <= e.consumed <= |vals|
          && InRangeValues(lo, hi, vals[..e.consumed]) == g[..e.attempts]
          && vals[e.consumed - 1] == Some(secret)
          && |e.hints| == e.attempts
          && (forall i :: 0 <= i < e.attempts ==> e.hints[i] == Compare(g[i], secret)))
  }

  /** The prompt finds nothing more: the secret is never guessed. */
  lemma RoundsRunOut(lo: int, hi: int, secret: int, vals: seq<Option<int>>, pos: int, hints: seq<Hint>)
    requires BetweenRounds(lo, hi, secret, vals, pos, hints)
    requires FirstInRange(lo, hi, vals[pos..]).None?
    ensures Played(lo, hi, secret, vals, None)
  {
    Advance(lo, hi, vals, pos);
  }

  /** The prompt returns a wrong guess: the next round starts after it. */
  lemma RoundGoesOn(lo: int, hi: int, secret: int, vals: seq<Option<int>>, pos: int, hints: seq<Hint>, e: Entry)
    requires BetweenRounds(lo, hi, secret, vals, pos, hints)
    requires FirstInRange(lo, hi, vals[pos..]) == Some(e) && e.guess != secret
    ensures pos < pos + e.consumed
    ensures BetweenRounds(lo, hi, secret, vals, pos + e.consumed, hints + [Compare(e.guess, secret)])
  {
    var seen := InRangeValues(lo, hi, vals[..pos]);
    Advance(lo, hi, vals, pos);
    HintsStep(seen, hints, e.guess, secret);
    Regroup(seen, e.guess, InRangeValues(lo, hi, vals[pos + e.consumed..]));
  }

  /** The prompt returns the secret: the game ends on it, where and how the
      postcondition of `PlayRounds` says. */
  lemma RoundHits(lo: int, hi: int, secret: int, vals: seq<Option<int>>, pos: int, hints: seq<Hint>,
                  e: Entry, fin: GameEnd)
    requires BetweenRounds(lo, hi, secret, vals, pos, hints)
    requires FirstInRange(lo, hi, vals[pos..]) == Some(e) && e.guess == secret
    requires fin == GameEnd(|hints| + 1, pos + e.consumed, hints + [Compare(e.guess, secret)])
    ensures Played(lo, hi, secret, vals, Some(fin))
  {
    var seen := InRangeValues(lo, hi, vals[..pos]);
    var after := InRangeValues(lo, hi, vals[pos + e.consumed..]);
    Advance(lo, hi, vals, pos);
    HintsStep(seen, hints, e.guess, secret);
    HitIsPlayed(lo, hi, secret, vals, fin, InRangeValues(lo, hi, vals), seen, after);
  }

  /** A game whose accepted guesses are `seen`, then the secret, then `after`,
      ended on that secret as `Played` says, given where it stopped. */
  lemma HitIsPlayed(lo: int, hi: int, secret: int, vals: seq<Option<int>>, fin: GameEnd,
                    g: seq<int>, seen: seq<int>, after: seq<int>)
    requires g == InRangeValues(lo, hi, vals)
    requires g == seen + ([secret] + after) && secret !in seen
    requires 1 <= fin.consumed <= |vals| && vals[fin.consumed - 1] == Some(secret)
    requires InRangeValues(lo, hi, vals[..fin.consumed]) == seen + [secret]
    requires fin.attempts == |seen| + 1 && |fin.hints| == fin.attempts
    requires forall i :: 0 <= i < |seen| + 1 ==> fin.hints[i] == Compare((seen + [secret])[i], secret)
    ensures Played(lo, hi, secret, vals, Some(fin))
  {
    FirstHit(g, seen, secret, after);
    HintsOfPrefix(seen + [secret], g, fin.hints, secret);
  }

  /** The loop of `play_game(lo, hi)` with the secret already drawn, over what
      `int` made of each line typed at the prompt. Each round takes the next
      reading in range (the prompt of `get_valid_input`), counts it, records
      its hint, and the loop stops at the first guess equal to the secret.
      `None` means the readings ran out before the secret was guessed. */
  method PlayRounds(lo: int, hi: int, secret: int, vals: seq<Option<int>>) returns (r: Option<GameEnd>)
    ensures Played(lo, hi, secret, vals, r)
  {
    var attempts := 0;
    var pos := 0;
    var hints := [];
    assert vals[..0] == [] && vals[0..] == vals;
    while true
      invariant BetweenRounds(lo, hi, secret, vals, pos, hints)
      invariant attempts == |hints|
      decreases |vals| - pos
    {
      var entry := FirstInRange(lo, hi, vals[pos..]);
      if entry.None? {
        RoundsRunOut(lo, hi, secret, vals, pos, hints);
        return None;
      }
      var e := entry.value;
      if e.guess == secret {
        var fin := GameEnd(attempts + 1, pos + e.consumed, hints + [Compare(e.guess, secret)]);
        RoundHits(lo, hi, secret, vals, pos, hints, e, fin);
        return Some(fin);
      }
      RoundGoesOn(lo, hi, secret, vals, pos, hints, e);
      attempts := attempts + 1;
      hints := hints + [Compare(e.guess, secret)];
      pos := pos + e.consumed;
    }
  }

  /** `play_game(lo, hi)` over the lines typed at the prompt. Each line is
      read with `int` once, in order, so reading them up front changes
      nothing. */
  method PlayGame(lo: int, hi: int, secret: int, inputs: seq<string>) returns (r: Option<GameEnd>)
    ensures r.None? <==> secret !in AcceptedGuesses(lo, hi, inputs)
    ensures !(lo <= secret <= hi) ==> r.None?
    ensures r.Some? ==>
      var g := AcceptedGuesses(lo, hi, inputs);
      var e := r.value;
      && e.attempts == FirstIndex(g, secret)
      && 1 <= e.consumed <= |inputs|
      && AcceptedGuesses(lo, hi, inputs[..e.consumed]) == g[..e.attempts]
      && IntOf(inputs[e.consumed - 1]) == Some(secret)
      && |e.hints| == e.attempts
      && (forall i :: 0 <= i < e.attempts ==> e.hints[i] == Compare(g[i], secret))
  {
    r := PlayRounds(lo, hi, secret, Readings(inputs));
    PlayedOnLines(lo, hi, secret, inputs, r);
  }

  /** A game played over the readings of the lines, told in terms of the lines. */
  lemma PlayedOnLines(lo: int, hi: int, secret: int, inputs: seq<string>, r: Option<GameEnd>)
    requires Played(lo, hi, secret, Readings(inputs), r)
    ensures r.None? <==> secret !in AcceptedGuesses(lo, hi, inputs)
    ensures !(lo <= secret <= hi) ==> r.None?
    ensures r.Some? ==>
      var g := AcceptedGuesses(lo, hi, inputs);
      var e := r.value;
      && e.attempts == FirstIndex(g, secret)
      && 1 <= e.consumed <= |inputs|
      && AcceptedGuesses(lo, hi, inputs[..e.consumed]) == g[..e.attempts]
      && IntOf(inputs[e.consumed - 1]) == Some(secret)
      && |e.hints| == e.attempts
      && (forall i :: 0 <= i < e.attempts ==> e.hints[i] == Compare(g[i], secret))
  {
    if r.Some? {
      ReadingsSlice(inputs, r.value.consumed);
      LineReads(inputs, r.value.consumed - 1, secret);
    }
  }

  lemma LineReads(inputs: seq<string>, i: nat, v: int)
    requires i < |inputs| && Readings(inputs)[i] == Some(v)
    ensures IntOf(inputs[i]) == Some(v)
  {
    ReadingAt(inputs, i);
  }
}

=== FILE: numbers.dfy ===
/** Decimal text and numbers: the subset of Python's `float(str)` and
    `int(str)` the model accepts, and the `:.2f` / `:,.2f` renderings.
    Numbers are exact `real`s; binary floating point is not modelled. */
module Numbers {
  import opened Wrappers
  import opened Text

  predicate IsDigit(c: char) {
    '0' <= c <= '9'
  }

  predicate AllDigits(s: string) {
    forall i :: 0 <= i < |s| ==> IsDigit(s[i])
  }

  function DigitValue(c: char): nat
    requires IsDigit(c)
  {
    c as int - '0' as int
  }

  function DigitChar(d: nat): (c: char)
    requires d < 10
    ensures IsDigit(c) && DigitValue(c) == d
  {
    ('0' as int + d) as char
  }

  /** The value of a string of decimal digits, most significant first; "" is 0. */
  function DigitsValue(s: string): nat
    requires AllDigits(s)
    decreases |s|
  {
    if |s| == 0 then 0 else DigitsValue(s[..|s| - 1]) * 10 + DigitValue(s[|s| - 1])
  }

  /** Python's `str(n)` for a natural number: no leading zeros. */
  function NatToDigits(n: nat): (s: string)
    ensures |s| > 0 && AllDigits(s)
    ensures s[0] == '0' ==> n == 0
    decreases n
  {
    if n < 10 then [DigitChar(n)] else NatToDigits(n / 10) + [DigitChar(n % 10)]
  }

  /** Printing a natural number and reading the digits back gives the number. */
  lemma {:induction false} DigitsRoundTrip(n: nat)
    ensures DigitsValue(NatToDigits(n)) == n
    decreases n
  {
    if n >= 10 {
      var s := NatToDigits(n);
      assert s[..|s| - 1] == NatToDigits(n / 10);
      DigitsRoundTrip(n / 10);
    }
  }

  function Pow10(k: nat): (p: nat)
    ensures p >= 1
  {
    if k == 0 then 1 else 10 * Pow10(k - 1)
  }

  function Signed(negative: bool, v: real): real {
    if negative then -v else v
  }

  /** Splits an optional leading `+` or `-` off a stripped numeral. */
  function SplitSign(t: string): (bool, string) {
    if |t| > 0 && (t[0] == '+' || t[0] == '-') then (t[0] == '-', t[1..]) else (false, t)
  }

  /** An unsigned decimal numeral: `ddd`, `ddd.ddd`, `ddd.` or `.ddd`. */
  function ParseUnsigned(body: string): (r: Option<real>)
    ensures r.Some? ==> r.value >= 0.0 && |body| > 0
    ensures r.Some? && |body| > 0 ==> IsDigit(body[0]) || body[0] == '.'
  {
    match IndexOf(body, '.')
    case None =>
      if |body| > 0 && AllDigits(body) then Some(DigitsValue(body) as real) else None
    case Some(k) =>
      var ip := body[..k];
      var fp := body[k + 1..];
      if AllDigits(ip) && AllDigits(fp) && |ip| + |fp| > 0 then
        Some(DigitsValue(ip) as real + DigitsValue(fp) as real / Pow10(|fp|) as real)
      else None
  }

  /** Python's `float(s)` on plain decimal numerals: surrounding whitespace is
      ignored, a sign is optional, and anything else is a ValueError (None). */
  function ParseDecimal(s: string): (r: Option<real>)
    ensures r.Some? ==> |Strip(s)| > 0
    ensures r.Some? && r.value < 0.0 ==> Strip(s)[0] == '-'
  {
    var (negative, body) := SplitSign(Strip(s));
    match ParseUnsigned(body)
    case None => None
    case Some(v) => Some(Signed(negative, v))
  }

  /** Python's `int(s)` on plain decimal numerals. */
  function ParseInt(s: string): (r: Option<int>)
    ensures r.Some? ==> |Strip(s)| > 0
    ensures r.Some? ==> '.' !in Strip(s)
  {
    var (negative, body) := SplitSign(Strip(s));
    if |body| > 0 && AllDigits(body) then
      Some(if negative then -(DigitsValue(body) as int) else DigitsValue(body))
    else None
  }

  /** U+001C to U+001F. `str.strip()` removes them as whitespace, but
      `float()` and `int()` do not. Those keep every ASCII character as it is
      and skip only the ASCII blanks (space, tab, and `\n` to `\r`), after
      turning each non-ASCII space into a blank. So a numeral padded with one of
      these four is rejected. */
  predicate IsInfoSeparator(c: char) {
    0x1C <= c as int <= 0x1F
  }

  predicate NoInfoSeparator(s: string) {
    forall i :: 0 <= i < |s| ==> !IsInfoSeparator(s[i])
  }

  /** Python's `float(s)` on text: accepted exactly when the text holds no
      information separator and what remains once the surrounding whitespace
      is stripped is a decimal numeral; the value is that numeral's. */
  function FloatOf(s: string): (r: Option<real>)
    ensures r.Some? <==> NoInfoSeparator(s) && DecimalNumeral(Strip(s))
    ensures r.Some? ==> r.value == NumeralValue(Strip(s))
  {
    ParseDecimalGrammar(s);
    if NoInfoSeparator(s) then ParseDecimal(s) else None
  }

  /** Python's `int(s)` on text, with the same whitespace rule as `FloatOf`
      and the integer grammar. */
  function IntOf(s: string): (r: Option<int>)
    ensures r.Some? <==> NoInfoSeparator(s) && IntegerNumeral(Strip(s))
    ensures r.Some? ==> r.value == IntegerValue(Strip(s))
  {
    ParseIntGrammar(s);
    if NoInfoSeparator(s) then ParseInt(s) else None
  }

  /** Text `float` rejects: letters, a thousands separator, a second point. */
  lemma FloatRejectsNonNumerals()
    ensures FloatOf("abc").None? && FloatOf("1,234").None? && FloatOf("1.2.3").None?
  {
    NotANumeral("abc", 0);
    NotANumeral("1,234", 1);
    TwoPoints("1.2.3");
  }

  /** Text `int` rejects: letters, any point, the empty line. */
  lemma IntRejectsNonNumerals()
    ensures IntOf("abc").None? && IntOf("1.5").None? && IntOf("").None?
  {
    NotANumeral("abc", 0);
    PointNotInteger("1.5", 1);
  }

  /** A character that is neither a digit, a sign nor a point, inside text with
      no padding, rules the text out for both grammars. */
  lemma NotANumeral(t: string, k: nat)
    requires k < |t| && !IsSpace(t[0]) && !IsSpace(t[|t| - 1])
    requires !IsDigit(t[k]) && !IsSignChar(t[k]) && t[k] != '.'
    ensures FloatOf(t).None? && IntOf(t).None?
  {
    StripUnpadded(t);
    if k > 0 {
      assert t[1..][k - 1] == t[k];
    }
  }

  lemma PointNotInteger(t: string, k: nat)
    requires k < |t| && !IsSpace(t[0]) && !IsSpace(t[|t| - 1]) && t[k] == '.'
    ensures IntOf(t).None?
  {
    StripUnpadded(t);
    if k > 0 {
      assert t[1..][k - 1] == t[k];
    }
  }

  lemma TwoPoints(t: string)
    requires t == "1.2.3"
    ensures FloatOf(t).None?
  {
    StripUnpadded(t);
    assert t[1] == '.' && t[3] == '.';
  }

  // The numeral grammars, stated character by character.

  predicate IsSignChar(c: char) {
    c == '+' || c == '-'
  }

  /** Digits with at most one `.` among them, and at least one digit. */
  predicate PointedDigits(b: string) {
    && (forall i :: 0 <= i < |b| ==> IsDigit(b[i]) || b[i] == '.')
    && (forall i, j :: 0 <= i < j < |b| ==> !(b[i] == '.' && b[j] == '.'))
    && (exists i :: 0 <= i < |b| && IsDigit(b[i]))
  }

  /** An optional `+` or `-`, then pointed digits: `5`, `-0.25`, `+.5`, `7.`. */
  predicate DecimalNumeral(t: string) {
    PointedDigits(t) || (|t| > 0 && IsSignChar(t[0]) && PointedDigits(t[1..]))
  }

  /** An optional `+` or `-`, then one or more digits. */
  predicate IntegerNumeral(t: string) {
    (|t| > 0 && AllDigits(t)) || (|t| > 1 && IsSignChar(t[0]) && AllDigits(t[1..]))
  }

  /** The digits of a numeral in order, without its sign and point. */
  function DigitsOf(t: string): (d: string)
    ensures AllDigits(d)
    decreases |t|
  {
    if |t| == 0 then "" else (if IsDigit(t[0]) then [t[0]] else "") + DigitsOf(t[1..])
  }

  /** How many characters follow the first point; 0 without one. */
  function FracLen(t: string): nat
    decreases |t|
  {
    if |t| == 0 then 0 else if t[0] == '.' then |t| - 1 else FracLen(t[1..])
  }

  predicate NumeralNegative(t: string) {
    |t| > 0 && t[0] == '-'
  }

  /** A decimal numeral's value: its digits read as one integer, divided by
      ten per digit after the point, with the sign applied. */
  function NumeralValue(t: string): real {
    Signed(NumeralNegative(t), DigitsValue(DigitsOf(t)) as real / Pow10(FracLen(t)) as real)
  }

  /** An integer numeral's value: its digits with the sign applied. */
  function IntegerValue(t: string): int {
    if NumeralNegative(t) then -(DigitsValue(DigitsOf(t)) as int) else DigitsValue(DigitsOf(t))
  }

  /** The reader `ParseDecimal` accepts exactly the decimal numerals and
      gives their value. */
  lemma ParseDecimalGrammar(s: string)
    ensures ParseDecimal(s).Some? <==> DecimalNumeral(Strip(s))
    ensures ParseDecimal(s).Some? ==> ParseDecimal(s).value == NumeralValue(Strip(s))
  {
    var t := Strip(s);
    var (negative, body) := SplitSign(t);
    SignedGrammar(t, negative, body);
    UnsignedGrammar(body);
  }

  /** The reader `ParseInt` accepts exactly the integer numerals and gives
      their value. */
  lemma ParseIntGrammar(s: string)
    ensures ParseInt(s).Some? <==> IntegerNumeral(Strip(s))
    ensures ParseInt(s).Some? ==> ParseInt(s).value == IntegerValue(Strip(s))
  {
    var t := Strip(s);
    var (negative, body) := SplitSign(t);
    SignedGrammar(t, negative, body);
    if |body| > 0 && AllDigits(body) {
      DigitsOfDigits(body);
    }
  }

  /** Splitting off the sign keeps the digits and the point, and leaves pointed
      digits exactly when the whole was a numeral. */
  lemma SignedGrammar(t: string, negative: bool, body: string)
    requires (negative, body) == SplitSign(t)
    ensures DecimalNumeral(t) <==> PointedDigits(body)
    ensures IntegerNumeral(t) <==> |body| > 0 && AllDigits(body)
    ensures DigitsOf(t) == DigitsOf(body) && FracLen(t) == FracLen(body)
    ensures NumeralNegative(t) == negative
  {
    if |t| > 0 && IsSignChar(t[0]) {
      assert body == t[1..];
      assert !PointedDigits(t) by { assert !IsDigit(t[0]) && t[0] != '.'; }
      assert !AllDigits(t) by { assert !IsDigit(t[0]); }
    }
  }

  /** `ParseUnsigned` accepts exactly the pointed digits, with the value of
      their digits scaled by the fraction length. */
  lemma UnsignedGrammar(body: string)
    ensures ParseUnsigned(body).Some? <==> PointedDigits(body)
    ensures ParseUnsigned(body).Some? ==>
      ParseUnsigned(body).value == DigitsValue(DigitsOf(body)) as real / Pow10(FracLen(body)) as real
  {
    match IndexOf(body, '.')
    case None =>
      NoPointNoFraction(body);
      if |body| > 0 && AllDigits(body) {
        DigitsOfDigits(body);
        assert IsDigit(body[0]);
      }
    case Some(k) =>
      var ip := body[..k];
      var fp := body[k + 1..];
      assert body == ip + "." + fp;
      PointedSplit(body, k);
      if AllDigits(ip) && AllDigits(fp) && |ip| + |fp| > 0 {
        PointedValue(ip, fp, body);
      }
  }

  lemma PointedSplit(body: string, k: nat)
    requires k < |body| && body[k] == '.' && '.' !in body[..k]
    ensures PointedDigits(body) <==>
      AllDigits(body[..k]) && AllDigits(body[k + 1..]) && |body| > 1
  {
    var ip := body[..k];
    var fp := body[k + 1..];
    if PointedDigits(body) {
      forall i | 0 <= i < |fp|
        ensures IsDigit(fp[i])
      {
        assert fp[i] == body[k + 1 + i];
      }
      forall i | 0 <= i < |ip|
        ensures IsDigit(ip[i])
      {
        assert ip[i] == body[i];
      }
      var i :| 0 <= i < |body| && IsDigit(body[i]);
      assert i != k;
    }
    if AllDigits(ip) && AllDigits(fp) && |body| > 1 {
      forall i | 0 <= i < |body|
        ensures IsDigit(body[i]) || body[i] == '.'
      {
        if i < k {
          assert body[i] == ip[i];
        } else if i > k {
          assert body[i] == fp[i - k - 1];
        }
      }
      forall i, j | 0 <= i < j < |body|
        ensures !(body[i] == '.' && body[j] == '.')
      {
        if j > k {
          assert body[j] == fp[j - k - 1];
        } else if i < k {
          assert body[i] == ip[i];
        }
      }
      var i := if k > 0 then 0 else k + 1;
      if k > 0 {
        assert body[0] == ip[0];
      } else {
        assert body[k + 1] == fp[0];
      }
      assert IsDigit(body[i]);
    }
  }

  /** The value of `ip.fp` read through its digits and fraction length. */
  lemma PointedValue(ip: string, fp: string, body: string)
    requires AllDigits(ip) && AllDigits(fp) && body == ip + "." + fp
    ensures DigitsValue(DigitsOf(body)) as real / Pow10(FracLen(body)) as real
      == DigitsValue(ip) as real + DigitsValue(fp) as real / Pow10(|fp|) as real
  {
    PointedParts(ip, fp, body);
    var d := ip + fp;
    DigitsValueAppend(ip, fp, d);
    ShiftedSum(DigitsValue(ip), DigitsValue(fp), Pow10(|fp|), DigitsValue(d));
  }

  lemma PointedParts(ip: string, fp: string, body: string)
    requires AllDigits(ip) && AllDigits(fp) && body == ip + "." + fp
    ensures DigitsOf(body) == ip + fp && FracLen(body) == |fp|
  {
    var pt := ip + ".";
    assert body == pt + fp;
    DigitsOfAppend(pt, fp);
    DigitsOfAppend(ip, ".");
    DigitsOfDigits(ip);
    DigitsOfDigits(fp);
    assert DigitsOf(".") == "";
    assert '.' !in ip by { assert forall i :: 0 <= i < |ip| ==> IsDigit(ip[i]); }
    FracLenAfterPoint(ip, fp);
  }

  lemma ShiftedSum(a: nat, b: nat, p: nat, v: nat)
    requires p >= 1 && v == a * p + b
    ensures v as real / p as real == a as real + b as real / p as real
  {
  }

  lemma {:induction false} DigitsOfAppend(a: string, b: string)
    ensures DigitsOf(a + b) == DigitsOf(a) + DigitsOf(b)
    decreases |a|
  {
    if |a| > 0 {
      assert (a + b)[1..] == a[1..] + b;
      DigitsOfAppend(a[1..], b);
    } else {
      assert a + b == b;
    }
  }

  lemma {:induction false} DigitsOfDigits(d: string)
    requires AllDigits(d)
    ensures DigitsOf(d) == d
    decreases |d|
  {
    if |d| > 0 {
      DigitsOfDigits(d[1..]);
    }
  }

  lemma {:induction false} NoPointNoFraction(t: string)
    requires '.' !in t
    ensures FracLen(t) == 0
    decreases |t|
  {
    if |t| > 0 {
      NoPointNoFraction(t[1..]);
    }
  }

  lemma {:induction false} FracLenAfterPoint(ip: string, fp: string)
    requires '.' !in ip
    ensures FracLen(ip + "." + fp) == |fp|
    decreases |ip|
  {
    if |ip| > 0 {
      assert (ip + "." + fp)[1..] == ip[1..] + "." + fp;
      FracLenAfterPoint(ip[1..], fp);
    } else {
      assert ip + "." + fp == "." + fp;
    }
  }

  /** Appending digits shifts the value left by their count. */
  lemma {:induction false} DigitsValueAppend(a: string, b: string, d: string)
    requires AllDigits(a) && AllDigits(b) && d == a + b
    ensures AllDigits(d) && DigitsValue(d) == DigitsValue(a) * Pow10(|b|) + DigitsValue(b)
    decreases |b|
  {
    if |b| == 0 {
      assert d == a;
    } else {
      var b' := b[..|b| - 1];
      var d' := a + b';
      assert d[..|d| - 1] == d';
      assert d[|d| - 1] == b[|b| - 1];
      DigitsValueAppend(a, b', d');
      var x, p, y, z := DigitsValue(a), Pow10(|b'|), DigitsValue(b'), DigitValue(b[|b| - 1]);
      assert DigitsValue(d) == (x * p + y) * 10 + z;
      assert DigitsValue(b) == y * 10 + z;
      assert Pow10(|b|) == p * 10;
      ShiftDigit(x, p, y, z);
    }
  }

  lemma ShiftDigit(x: int, p: int, y: int, z: int)
    ensures (x * p + y) * 10 + z == x * (p * 10) + (y * 10 + z)
  {
    assert (x * p) * 10 == x * (p * 10);
  }

  /** A `.2f` or `,.2f` rendering holds no information separator. */
  lemma NumeralFloat(s: string)
    requires AllNumeralChars(s)
    ensures FloatOf(s) == ParseDecimal(s)
  {
    forall i | 0 <= i < |s|
      ensures !IsInfoSeparator(s[i])
    {
      assert NumeralChar(s[i]);
    }
  }

  /** Python's `str(n)` for any integer. */
  function IntToString(n: int): string {
    if n < 0 then "-" + NatToDigits(-n) else NatToDigits(n)
  }

  /** `int` reads back what `str` prints. */
  lemma IntRoundTrip(n: int)
    ensures ParseInt(IntToString(n)) == Some(n)
    ensures IntOf(IntToString(n)) == Some(n)
  {
    var s := IntToString(n);
    var d := NatToDigits(if n < 0 then -n else n);
    IntTextPlain(n);
    DigitsRoundTrip(if n < 0 then -n else n);
    StripUnpadded(s);
    if n < 0 {
      assert SplitSign(s) == (true, d);
    } else {
      assert SplitSign(s) == (false, d);
    }
  }

  lemma IntTextPlain(n: int)
    ensures NoInfoSeparator(IntToString(n))
  {
    var s := IntToString(n);
    var d := NatToDigits(if n < 0 then -n else n);
    forall i | 0 <= i < |s|
      ensures !IsInfoSeparator(s[i])
    {
      if n < 0 && i > 0 {
        assert s[i] == d[i - 1];
      }
    }
  }

  /** Nearest natural number to a non-negative rational, ties to the even one. */
  function RoundHalfEven(q: real): (n: nat)
    requires q >= 0.0
    ensures n as real - 0.5 <= q <= n as real + 0.5
    ensures (q == n as real - 0.5 || q == n as real + 0.5) ==> n % 2 == 0
  {
    var f := q.Floor;
    var d := q - f as real;
    if d < 0.5 then f
    else if d > 0.5 then f + 1
    else if f % 2 == 0 then f
    else f + 1
  }

  function Abs(x: real): real {
    if x < 0.0 then -x else x
  }

  /** The magnitude of `x` in hundredths, as `.2f` rounds it. */
  function Hundredths(x: real): nat {
    RoundHalfEven(Abs(x) * 100.0)
  }

  /** The value `.2f` displays for `x`. */
  function Round2(x: real): real {
    Signed(x < 0.0, Hundredths(x) as real / 100.0)
  }

  /** The characters a `.2f` or `,.2f` rendering is made of. */
  predicate NumeralChar(ch: char) {
    IsDigit(ch) || ch == ',' || ch == '.' || ch == '-'
  }

  predicate AllNumeralChars(s: string) {
    forall i :: 0 <= i < |s| ==> NumeralChar(s[i])
  }

  /** Inserts a comma between every group of three digits, counted from the right. */
  function Group(d: string): (g: string)
    requires |d| > 0 && AllDigits(d)
    ensures |g| > 0 && g[0] == d[0] && g[|g| - 1] == d[|d| - 1]
    ensures forall i :: 0 <= i < |g| ==> IsDigit(g[i]) || g[i] == ','
    decreases |d|
  {
    if |d| <= 3 then d else Group(d[..|d| - 3]) + "," + d[|d| - 3..]
  }

  /** Python's `f"{x:.2f}"` (grouped = false) and `f"{x:,.2f}"` (grouped = true).
      A negative value keeps its `-` even when it rounds to zero, as Python's does. */
  function FormatFixed2(x: real, grouped: bool): (s: string)
    ensures |s| > 0 && AllNumeralChars(s) && IsDigit(s[|s| - 1])
    ensures s[0] == '-' <==> x < 0.0
    ensures x >= 0.0 ==> IsDigit(s[0])
    ensures Fixed2Layout(x < 0.0, s)
    ensures grouped ==> CommasEveryFour(s[(if x < 0.0 then 1 else 0)..|s| - 3])
    ensures !grouped ==> ',' !in s
  {
    var s := Fixed2Text(x < 0.0, Hundredths(x), grouped);
    Fixed2TextLayout(x < 0.0, Hundredths(x), grouped, s);
    s
  }

  /** The point sits before exactly two digits and nowhere else, and the whole
      part between the sign and the point is `0` or starts with a non-zero
      digit. */
  predicate Fixed2Layout(negative: bool, s: string) {
    var lead := if negative then 1 else 0;
    && |s| >= lead + 4
    && s[|s| - 3] == '.' && IsDigit(s[|s| - 2]) && IsDigit(s[|s| - 1])
    && '.' !in s[..|s| - 3]
    && (s[lead] == '0' ==> s[lead..|s| - 3] == "0")
  }

  lemma Fixed2TextLayout(negative: bool, m: nat, grouped: bool, s: string)
    requires s == Fixed2Text(negative, m, grouped)
    ensures Fixed2Layout(negative, s)
    ensures grouped ==> CommasEveryFour(s[(if negative then 1 else 0)..|s| - 3])
    ensures !grouped ==> ',' !in s
  {
    var whole := NatToDigits(m / 100);
    var sign: string := if negative then "-" else "";
    var w := if grouped then Group(whole) else whole;
    var cents := Cents(m);
    WholePartLayout(whole, grouped, w);
    Fixed2Parts(sign, w, cents, s);
    if grouped {
      GroupCommaPlaces(whole);
    } else {
      assert ',' !in whole by { assert forall i :: 0 <= i < |whole| ==> IsDigit(whole[i]); }
      assert ',' !in cents by { assert IsDigit(cents[0]) && IsDigit(cents[1]); }
      assert ',' !in sign;
    }
  }

  /** The whole part holds no point and has no leading zero. */
  lemma WholePartLayout(whole: string, grouped: bool, w: string)
    requires |whole| > 0 && AllDigits(whole) && (whole[0] == '0' ==> whole == "0")
    requires w == if grouped then Group(whole) else whole
    ensures |w| > 0 && '.' !in w && (w[0] == '0' ==> w == "0")
  {
    assert forall i :: 0 <= i < |w| ==> IsDigit(w[i]) || w[i] == ',';
  }

  lemma Fixed2Parts(sign: string, w: string, cents: string, s: string)
    requires |sign| <= 1 && (|sign| == 1 ==> sign[0] == '-')
    requires |w| > 0 && '.' !in w && (w[0] == '0' ==> w == "0")
    requires |cents| == 2 && AllDigits(cents)
    requires s == sign + w + "." + cents
    ensures Fixed2Layout(|sign| == 1, s)
    ensures s[|sign|..|s| - 3] == w
  {
    assert s[..|s| - 3] == sign + w;
    assert s[|sign|..|s| - 3] == w;
    assert s[|s| - 2..] == cents;
  }

  /** The text of `m` hundredths: an optional `-`, the whole part (grouped or
      not) and exactly two decimals. */
  function Fixed2Text(negative: bool, m: nat, grouped: bool): (s: string)
    ensures |s| > 0 && AllNumeralChars(s) && IsDigit(s[|s| - 1])
    ensures s[0] == '-' <==> negative
    ensures !negative ==> IsDigit(s[0])
  {
    var whole := NatToDigits(m / 100);
    (if negative then "-" else "")
      + (if grouped then Group(whole) else whole)
      + "." + Cents(m)
  }

  /** Counting from the right, every fourth character is a comma and no other
      is, and the text does not start with one. */
  predicate CommasEveryFour(g: string) {
    && |g| % 4 != 0
    && forall i :: 0 <= i < |g| ==> (g[i] == ',' <==> (|g| - i) % 4 == 0)
  }

  /** Where `,` puts the thousands separators: every fourth character from the
      right is a comma, and removing the commas gives the digits back. So each
      comma is followed by exactly three digits, and the leading group has one
      to three. */
  lemma {:induction false} GroupCommaPlaces(d: string)
    requires |d| > 0 && AllDigits(d)
    ensures CommasEveryFour(Group(d)) && Ungroup(Group(d)) == d
    decreases |d|
  {
    UngroupGroup(d);
    if |d| > 3 {
      var hi := d[..|d| - 3];
      var lo := d[|d| - 3..];
      GroupCommaPlaces(hi);
      CommasStep(Group(hi), lo);
    } else {
      DigitsHaveNoCommas(d);
    }
  }

  lemma DigitsHaveNoCommas(d: string)
    requires 0 < |d| <= 3 && AllDigits(d)
    ensures CommasEveryFour(d)
  {
    forall i | 0 <= i < |d|
      ensures d[i] == ',' <==> (|d| - i) % 4 == 0
    {
      assert IsDigit(d[i]);
    }
  }

  lemma CommasStep(gh: string, lo: string)
    requires CommasEveryFour(gh) && |lo| == 3 && AllDigits(lo)
    ensures CommasEveryFour(gh + "," + lo)
  {
    var g := gh + "," + lo;
    forall i | 0 <= i < |g|
      ensures g[i] == ',' <==> (|g| - i) % 4 == 0
    {
      if i < |gh| {
        assert g[i] == gh[i];
        assert |g| - i == (|gh| - i) + 4;
      } else if i > |gh| {
        assert g[i] == lo[i - |gh| - 1];
        assert IsDigit(lo[i - |gh| - 1]);
      }
    }
  }

  /** Deletes every comma. */
  function Ungroup(s: string): (r: string)
    ensures ',' !in r
    decreases |s|
  {
    if |s| == 0 then "" else (if s[0] == ',' then "" else [s[0]]) + Ungroup(s[1..])
  }

  lemma {:induction false} UngroupAppend(a: string, b: string)
    ensures Ungroup(a + b) == Ungroup(a) + Ungroup(b)
    decreases |a|
  {
    if |a| > 0 {
      assert (a + b)[1..] == a[1..] + b;
      UngroupAppend(a[1..], b);
    } else {
      assert a + b == b;
    }
  }

  lemma {:induction false} UngroupNoComma(d: string)
    requires ',' !in d
    ensures Ungroup(d) == d
    decreases |d|
  {
    if |d| > 0 {
      UngroupNoComma(d[1..]);
    }
  }

  /** Removing the thousands separators restores the digits. */
  lemma {:induction false} UngroupGroup(d: string)
    requires |d| > 0 && AllDigits(d)
    ensures Ungroup(Group(d)) == d
    decreases |d|
  {
    if |d| <= 3 {
      UngroupNoComma(d);
    } else {
      var hi := d[..|d| - 3];
      var lo := d[|d| - 3..];
      calc {
        Ungroup(Group(d));
        Ungroup(Group(hi) + "," + lo);
        { UngroupAppend(Group(hi) + ",", lo); }
        Ungroup(Group(hi) + ",") + Ungroup(lo);
        { UngroupAppend(Group(hi), ","); UngroupNoComma(lo); }
        Ungroup(Group(hi)) + Ungroup(",") + lo;
        { UngroupGroup(hi); UngroupComma(); }
        hi + "" + lo;
        { assert hi + "" == hi; }
        hi + lo;
        { assert d == hi + lo; }
        d;
      }
    }
  }

  lemma UngroupComma()
    ensures Ungroup(",") == ""
  {
    assert ","[1..] == "";
  }

  /** The grouped and ungrouped renderings differ only in their commas. */
  lemma UngroupFormat(x: real)
    ensures Ungroup(FormatFixed2(x, true)) == FormatFixed2(x, false)
  {
    UngroupFixed2(x < 0.0, Hundredths(x), FormatFixed2(x, true), FormatFixed2(x, false));
  }

  lemma UngroupFixed2(negative: bool, m: nat, grouped: string, plain: string)
    requires grouped == Fixed2Text(negative, m, true) && plain == Fixed2Text(negative, m, false)
    ensures Ungroup(grouped) == plain
  {
    var whole := NatToDigits(m / 100);
    var sign: string := if negative then "-" else "";
    var cents := Cents(m);
    assert ',' !in cents by {
      assert IsDigit(cents[0]) && IsDigit(cents[1]);
    }
    calc {
      Ungroup(grouped);
      Ungroup(sign + Group(whole) + "." + cents);
      { UngroupAppend(sign + Group(whole) + ".", cents); UngroupNoComma(cents); }
      Ungroup(sign + Group(whole) + ".") + cents;
      { UngroupAppend(sign + Group(whole), "."); UngroupNoComma("."); }
      Ungroup(sign + Group(whole)) + "." + cents;
      { UngroupAppend(sign, Group(whole)); UngroupNoComma(sign); UngroupGroup(whole); }
      sign + whole + "." + cents;
      plain;
    }
  }

  /** The two digits `.2f` prints after the point. */
  function Cents(m: nat): (f: string)
    ensures |f| == 2 && AllDigits(f) && DigitsValue(f) == m % 100
  {
    var f := [DigitChar(m % 100 / 10), DigitChar(m % 10)];
    assert f[..1] == [DigitChar(m % 100 / 10)];
    assert DigitsValue(f[..1]) == m % 100 / 10;
    assert m % 100 == (m % 100 / 10) * 10 + m % 10;
    f
  }

  lemma SplitAtPoint(whole: string, frac: string)
    requires AllDigits(whole)
    ensures var body := whole + "." + frac;
      IndexOf(body, '.') == Some(|whole|) && body[..|whole|] == whole && body[|whole| + 1..] == frac
  {
    var body := whole + "." + frac;
    assert body[|whole|] == '.';
    assert body[..|whole|] == whole;
    assert '.' !in whole;
  }

  lemma HundredthsSum(m: nat)
    ensures (m / 100) as real + (m % 100) as real / 100.0 == m as real / 100.0
  {
    assert m == (m / 100) * 100 + m % 100;
  }

  /** The unsigned part of a `.2f` rendering reads back as the rounded magnitude. */
  lemma UnsignedRoundTrip(m: nat)
    ensures ParseUnsigned(NatToDigits(m / 100) + "." + Cents(m)) == Some(m as real / 100.0)
  {
    var whole := NatToDigits(m / 100);
    var body := whole + "." + Cents(m);
    SplitAtPoint(whole, Cents(m));
    assert ParseUnsigned(body)
      == Some(DigitsValue(whole) as real + DigitsValue(Cents(m)) as real / Pow10(2) as real);
    DigitsRoundTrip(m / 100);
    assert Pow10(2) == 100;
    HundredthsSum(m);
  }

  /** A numeral that starts with a digit and ends with one parses, under an
      optional minus sign, to its unsigned value with that sign. */
  lemma SignedNumeral(negative: bool, u: string, v: real)
    requires |u| > 0 && IsDigit(u[0]) && IsDigit(u[|u| - 1])
    requires ParseUnsigned(u) == Some(v)
    ensures ParseDecimal((if negative then "-" else "") + u) == Some(Signed(negative, v))
  {
    SignSplits(negative, u);
  }

  /** Stripping a sign-and-digits numeral changes nothing, and the sign splits
      off as written. */
  lemma SignSplits(negative: bool, u: string)
    requires |u| > 0 && IsDigit(u[0]) && IsDigit(u[|u| - 1])
    ensures var s := (if negative then "-" else "") + u;
      SplitSign(Strip(s)) == (negative, u)
  {
    var s := (if negative then "-" else "") + u;
    assert s[|s| - 1] == u[|u| - 1];
    StripUnpadded(s);
    if negative {
      assert s[0] == '-' && s[1..] == u;
    } else {
      assert s == u;
    }
  }

  /** `float` reads back the value `.2f` displays: the rendering loses exactly
      the rounding to hundredths and nothing else. */
  lemma FormatRoundTrip(x: real)
    ensures ParseDecimal(FormatFixed2(x, false)) == Some(Round2(x))
    ensures FloatOf(FormatFixed2(x, false)) == Some(Round2(x))
  {
    SignedRoundTrip(x < 0.0, Hundredths(x), FormatFixed2(x, false), Round2(x));
    NumeralFloat(FormatFixed2(x, false));
  }

  /** The text `t` of `m` hundredths with a sign reads back as the value `v`
      of `m / 100` with that sign. */
  lemma SignedRoundTrip(negative: bool, m: nat, t: string, v: real)
    requires t == Fixed2Text(negative, m, false) && v == Signed(negative, m as real / 100.0)
    ensures ParseDecimal(t) == Some(v)
  {
    var sign: string := if negative then "-" else "";
    var u := NatToDigits(m / 100) + "." + Cents(m);
    assert t == sign + u;
    UnsignedRoundTrip(m);
    assert u[|u| - 1] == Cents(m)[1];
    SignedNumeral(negative, u, m as real / 100.0);
  }
}

=== FILE: text.dfy ===
/** String helpers with Python's meaning: `str.strip()`, `str.lower()` on the
    letters that matter here, `sep.join(parts)` and `s.split(sep)`. */
module Text {
  import opened Wrappers

  /** The characters Python's `str.isspace` accepts, which `str.strip()` with
      no argument removes from both ends. */
  predicate IsSpace(c: char) {
    var n := c as int;
    || n == 0x20 || 0x09 <= n <= 0x0D || 0x1C <= n <= 0x1F
    || n == 0x85 || n == 0xA0 || n == 0x1680 || 0x2000 <= n <= 0x200A
    || n == 0x2028 || n == 0x2029 || n == 0x202F || n == 0x205F || n == 0x3000
  }

  predicate AllSpace(s: string) {
    forall i :: 0 <= i < |s| ==> IsSpace(s[i])
  }

  /** `s.lstrip()`: the suffix of `s` left after its leading whitespace. */
  function StripLeft(s: string): (r: string)
    ensures |r| <= |s| && r == s[|s| - |r|..]
    ensures AllSpace(s[..|s| - |r|])
    ensures |r| > 0 ==> !IsSpace(r[0])
    decreases |s|
  {
    if |s| > 0 && IsSpace(s[0]) then StripLeft(s[1..]) else s
  }

  /** `s.rstrip()`: the prefix of `s` left after its trailing whitespace. */
  function StripRight(s: string): (r: string)
    ensures |r| <= |s| && r == s[..|r|]
    ensures AllSpace(s[|r|..])
    ensures |r| > 0 ==> !IsSpace(r[|r| - 1])
    decreases |s|
  {
    if |s| > 0 && IsSpace(s[|s| - 1]) then StripRight(s[..|s| - 1]) else s
  }

  /** `s.strip()`. */
  function Strip(s: string): string {
    StripRight(StripLeft(s))
  }

  /** Strip removes whitespace only, and only from the two ends: the result is
      a contiguous slice of the input, everything cut off is whitespace, and
      the result neither starts nor ends with whitespace. */
  lemma StripSlice(s: string)
    ensures var r := Strip(s);
      exists i :: 0 <= i <= |s| - |r| && r == s[i..i + |r|]
        && AllSpace(s[..i]) && AllSpace(s[i + |r|..])
    ensures var r := Strip(s);
      |r| > 0 ==> !IsSpace(r[0]) && !IsSpace(r[|r| - 1])
  {
    var i := |s| - |StripLeft(s)|;
    StripCut(s, i);
    StripEnds(s);
  }

  /** Strip keeps the slice that starts where `lstrip` stops. */
  lemma StripCut(s: string, i: int)
    requires i == |s| - |StripLeft(s)|
    ensures var r := Strip(s);
      && 0 <= i <= |s| - |r| && r == s[i..i + |r|]
      && AllSpace(s[..i]) && AllSpace(s[i + |r|..])
  {
    StripIsSlice(s, i);
    StripTailIsSpace(s, i);
  }

  lemma StripIsSlice(s: string, i: int)
    requires i == |s| - |StripLeft(s)|
    ensures var r := Strip(s); 0 <= i <= |s| - |r| && r == s[i..i + |r|]
  {
    var l := StripLeft(s);
    SliceOfSuffix(s, i, l, Strip(s));
  }

  lemma SliceOfSuffix<T>(s: seq<T>, i: int, l: seq<T>, r: seq<T>)
    requires 0 <= i <= |s| && |l| == |s| - i && l == s[|s| - |l|..]
    requires |r| <= |l| && r == l[..|r|]
    ensures i + |r| <= |s| && r == s[i..i + |r|]
  {
  }

  lemma StripTailIsSpace(s: string, i: int)
    requires i == |s| - |StripLeft(s)|
    ensures var r := Strip(s); 0 <= i + |r| <= |s| && AllSpace(s[i + |r|..])
  {
    var l := StripLeft(s);
    var r := StripRight(l);
    SuffixOfSuffix(s, i, l, |r|);
  }

  lemma SuffixOfSuffix<T>(s: seq<T>, i: int, l: seq<T>, n: int)
    requires 0 <= i <= |s| && |l| == |s| - i && l == s[|s| - |l|..] && 0 <= n <= |l|
    ensures s[i + n..] == l[n..]
  {
  }

  lemma StripEnds(s: string)
    ensures var r := Strip(s);
      |r| > 0 ==> !IsSpace(r[0]) && !IsSpace(r[|r| - 1])
  {
    var l := StripLeft(s);
    var r := StripRight(l);
    if |r| > 0 {
      assert r[0] == l[0];
    }
  }

  /** A string with no whitespace at either end is its own strip. */
  lemma StripUnpadded(s: string)
    requires |s| > 0 && !IsSpace(s[0]) && !IsSpace(s[|s| - 1])
    ensures Strip(s) == s
  {
  }

  lemma {:induction false} StripLeftSpaces(pre: string, rest: string)
    requires AllSpace(pre)
    ensures StripLeft(pre + rest) == StripLeft(rest)
    decreases |pre|
  {
    if |pre| > 0 {
      assert (pre + rest)[1..] == pre[1..] + rest;
      StripLeftSpaces(pre[1..], rest);
    } else {
      assert pre + rest == rest;
    }
  }

  lemma {:induction false} StripRightSpaces(rest: string, post: string)
    requires AllSpace(post)
    ensures StripRight(rest + post) == StripRight(rest)
    decreases |post|
  {
    if |post| > 0 {
      var s := rest + post;
      assert s[..|s| - 1] == rest + post[..|post| - 1];
      StripRightSpaces(rest, post[..|post| - 1]);
    } else {
      assert rest + post == rest;
    }
  }

  /** Whitespace of any length around a word is what strip removes, and all of it. */
  lemma StripPadding(pre: string, w: string, post: string)
    requires AllSpace(pre) && AllSpace(post)
    requires |w| > 0 && !IsSpace(w[0]) && !IsSpace(w[|w| - 1])
    ensures Strip(pre + w + post) == w
  {
    assert pre + w + post == pre + (w + post);
    StripLeftSpaces(pre, w + post);
    assert StripLeft(w + post) == w + post;
    StripRightSpaces(w, post);
    StripUnpadded(w);
  }

  /** Stripping twice is stripping once. */
  lemma {:induction false} StripIdempotent(s: string)
    ensures Strip(Strip(s)) == Strip(s)
  {
    StripSlice(s);
    var r := Strip(s);
    if |r| > 0 {
      StripUnpadded(r);
    }
  }

  /** Python's `c.lower()` on the ASCII capitals. */
  function LowerChar(c: char): char {
    if 'A' <= c <= 'Z' then (c as int + 32) as char else c
  }

  /** `s.lower()` restricted to ASCII capitals; every other character is kept. */
  function LowerAscii(s: string): (r: string)
    ensures |r| == |s|
    ensures forall i :: 0 <= i < |s| ==> r[i] == LowerChar(s[i])
    decreases |s|
  {
    if |s| == 0 then "" else [LowerChar(s[0])] + LowerAscii(s[1..])
  }

  /** The position of the first `c` in `s`, if any (`s.find(c)`). */
  function IndexOf(s: string, c: char): (r: Option<nat>)
    ensures r.None? <==> c !in s
    ensures r.Some? ==> r.value < |s| && s[r.value] == c && c !in s[..r.value]
    decreases |s|
  {
    if |s| == 0 then None
    else if s[0] == c then Some(0)
    else match IndexOf(s[1..], c)
      case None => None
      case Some(k) => assert s[..k + 1] == [s[0]] + s[1..][..k]; Some(k + 1)
  }

  /** `sep.join(parts)` for a one-character separator. */
  function Join(parts: seq<string>, sep: char): string
    decreases |parts|
  {
    if |parts| == 0 then ""
    else if |parts| == 1 then parts[0]
    else parts[0] + [sep] + Join(parts[1..], sep)
  }

  /** `s.split(sep)` for a one-character separator: never empty. */
  function Split(s: string, sep: char): (r: seq<string>)
    ensures |r| >= 1
    decreases |s|
  {
    match IndexOf(s, sep)
    case None => [s]
    case Some(k) => [s[..k]] + Split(s[k + 1..], sep)
  }

  predicate NoneContain(parts: seq<string>, sep: char) {
    forall i :: 0 <= i < |parts| ==> sep !in parts[i]
  }

  /** Splitting a join gives back the parts, provided no part holds the separator. */
  lemma {:induction false} SplitJoin(parts: seq<string>, sep: char)
    requires |parts| >= 1 && NoneContain(parts, sep)
    ensures Split(Join(parts, sep), sep) == parts
    decreases |parts|
  {
    if |parts| > 1 {
      var s := Join(parts, sep);
      var p := parts[0];
      assert s == p + [sep] + Join(parts[1..], sep);
      assert s[|p|] == sep;
      assert s[..|p|] == p;
      assert IndexOf(s, sep) == Some(|p|);
      assert s[|p| + 1..] == Join(parts[1..], sep);
      SplitJoin(parts[1..], sep);
    } else {
      assert sep !in parts[0];
    }
  }

  lemma JoinCons(x: string, rest: seq<string>, sep: char)
    requires |rest| >= 1
    ensures Join([x] + rest, sep) == x + [sep] + Join(rest, sep)
  {
    assert ([x] + rest)[1..] == rest;
  }

  /** Appending a part to a join adds one separator and the part at the end. */
  lemma {:induction false} JoinSnoc(parts: seq<string>, last: string, sep: char)
    requires |parts| >= 1
    ensures Join(parts + [last], sep) == Join(parts, sep) + [sep] + last
    decreases |parts|
  {
    if |parts| > 1 {
      assert (parts + [last])[1..] == parts[1..] + [last];
      JoinSnoc(parts[1..], last, sep);
    }
  }
}

=== FILE: wrappers.dfy ===
/** Option and Result, the failure-carrying values the rest of the model returns
    in place of Python's None and raised exceptions. */
module Wrappers {

  datatype Option<+T> = None | Some(value: T) {
    function GetOr(default: T): T {
      match this
      case Some(v) => v
      case None => default
    }
  }

  datatype Result<+T, +E> = Success(value: T) | Failure(error: E)
}
